=== FILE: README.md ===
# Groove Lounge loot-box engine in Dafny

This project models the game-rules core of Groove Lounge, a browser collectible-card game. Players spend coins to open
one of three boxes (conqueror, maestro, visionary). Each box reveals a card drawn by category, type and rarity tier.
Claimed cards are collected into per-type sets. Owning all nine tiers of a set pays 1000 coins, once. Duplicate cards
can be sold back, and a secret-tier card sells for a random 700..1500 coins that a four-digit flip board shows.

Every `Math.random()` call is an explicit `Roll` parameter, a real in [0, 1). Rarity tables are exact integers in
thousandths; each table sums to exactly 1000. The browser's global `gameState` becomes an immutable `Game` value, and
each event handler becomes a pure step function over it.

Modules, leaf first:

- `Wrappers` (`wrappers.dfy`): Option.
- `Seqs` (`seqs.dfy`): `indexOf`, first-occurrence removal (`splice`) and filter-count over sequences.
- `Dice` (`dice.dfy`): the `Roll` type and `Math.floor(r * n)`.
- `Config` (`config.dfy`): tiers, tier values, categories and type lists, the three boxes and their tables.
- `CardIds` (`cardids.dfy`): the ids `type-rarity` and `category-type`, and `split('-')[1]`.
- `Generator` (`generator.dfy`): `generateRandomCard`.
- `Collection` (`collection.dfy`): owned lists, counts, totals and the set-completion test.
- `SlotMachine` (`slotmachine.dfy`): the secret sale value and its four digits.
- `Session` (`session.dfy`): open box, claim, discard, set completion and selling, plus the session invariant `Valid`.
- `Persistence` (`persistence.dfy`): the saved record, `saveGame` and `loadGame`.
- `DevMode` (`devmode.dfy`): the `skysky` toggle and the developer-only mutations.

Behaviour of the code worth knowing:

- A normal sale always removes the set id from `completedSets` (app.js:1763-1769 and 1816-1822). A sale is only
  offered while more than one copy is owned, so it can never make a set incomplete. The id is still removed, and the
  next claim of a card of that set pays the 1000-coin reward again. `Session.SaleThenClaimRepaysReward` proves this.
- `generateRandomCard` never fails on an unknown box: it draws from the conqueror table. `openBoxProcess` refuses an
  unknown box without an error value. It has already recorded the box id and auto-claimed any pending card.
- In developer mode a sell button can hold both the normal and the developer handler, so one click can sell the last
  copy. For a non-secret card the set id is dropped first (`DevMode.SellClickWithBothHandlers`). For a secret card the
  normal handler's slot-machine callback is lost, and the set stays recorded though incomplete
  (`DevMode.SecretSellClickWithBothHandlers`).
- `loadGame` copies `coins` and `collection` verbatim and defaults only `completedSets` and `seenCards`.

## Model

| member | source | states |
|---|---|---|
| Config.RarityNameRoundTrip | app.js:68 | every tier name parses back to its tier, is non-empty and contains no `-` |
| Config.AllRarityNamesCount | app.js:68 | the `rarities` list yields exactly nine distinct tier names |
| Config.ValueOf | app.js:70-80 | only the secret tier has the `'random'` value; every fixed value lies in 10..600 |
| Config.ValuesIncreaseWithTier | app.js:70-80 | fixed tier values strictly increase along the tier order |
| Config.CardTypesHaveNoDash | app.js:62-66 | each category's type list is non-empty, and no type or category name is empty or contains `-` |
| Config.CardTypeOwnedOnce | app.js:62-66 | no card type is listed under two categories |
| Config.CardTypesDistinct | app.js:62-66 | no card type is listed twice within its category |
| Config.LookupBox | app.js:18-59 | exactly the ids conqueror, maestro and visionary name a box |
| Config.BoxTablesExact | app.js:18-59 | every box costs more than 0, its table sums to exactly 1000 thousandths, and no tier repeats |
| Config.PrefixSumMonotone | app.js:415-420 | the running probability sum never decreases along a table |
| Seqs.IndexOf | app.js:1739 | `indexOf` returns the first index holding the value, or none exactly when the value is absent |
| Seqs.RemoveFirst | app.js:1739-1743 | `splice` at the first index removes exactly one occurrence and leaves the rest in order; absent values change nothing |
| Seqs.RemoveFirstKeepsOthers | app.js:1816-1822 | removing one value keeps every other value's membership |
| Seqs.RemoveFirstOfDistinct | app.js:1816-1822 | in a list without repeats, removing a value's first occurrence removes it entirely and keeps the list repeat-free |
| Seqs.CountIsMultiplicity | app.js:994 | the filter-length count equals the value's multiplicity |
| Dice.ScaledFloor | app.js:405 | `Math.floor(r * n)` is an index in [0, n) for positive n, and the integer part of r * n |
| CardIds.SecondField | app.js:1011 | `split('-')[1]` is missing exactly when the id has no `-`, and never contains `-` |
| CardIds.RarityField | app.js:1011-1012 | the field set completion collects is non-empty and `-`-free |
| CardIds.CardId | app.js:437 | for a `-`-free type, the first `-` of the id sits just after the type, and the text before and after it are the type and the tier name |
| CardIds.SetId | app.js:999 | the first `-` of a set id ends the category name, and the rest is the type |
| CardIds.CardIdSplits | app.js:437 | for a `-`-free type, splitting the id `type-rarity` recovers the tier name and the tier |
| CardIds.SetIdInjective | app.js:999 | distinct (category, listed type) pairs have distinct set ids |
| CardIds.CardIdInjective | app.js:437 | distinct (type, tier) pairs with `-`-free types have distinct card ids |
| Generator.PickCategory | app.js:394-402 | character below 0.33, weapon in [0.33, 0.66), instrument from 0.66 |
| Generator.PickType | app.js:404-406 | the drawn type is one of the category's listed types, the one at index `floor(roll * n)` for a list of `n` types |
| Generator.PickTypeBand | app.js:404-406 | the type draw is uniform: the `k`-th listed type is drawn exactly when `k <= roll * n < k + 1` |
| Generator.PickFrom | app.js:413-424 | the scan returns the first row whose running sum exceeds the roll, or none when no row does |
| Generator.PickRowInterval | app.js:413-424 | row i is chosen exactly when the roll lies in [sum of rows before i, that sum plus row i), so each row has its table probability |
| Generator.PickRowTotal | app.js:413-429 | a table summing to 1000 always chooses a row, so the classic fallback is never reached |
| Generator.TableBox | app.js:409 | an unknown box id draws from the conqueror table |
| Generator.PickRarity | app.js:426-429 | the chosen row's tier, or classic when no row is chosen |
| Generator.GenerateCard | app.js:392-439 | the card is well formed (listed type, id `type-rarity`, tier value); its category follows the category roll, its type is the type draw on the type roll, and its tier is the rarity draw on the rarity roll over the table used, a tier listed in that table |
| Generator.UnknownBoxDrawsAsConqueror | app.js:409 | an unknown box generates exactly the card the conqueror box would |
| Generator.GeneratedRarityBand | app.js:409-424 | for a known box, the card has row i's tier exactly when the rarity roll falls in row i's band |
| Generator.GeneratedIdSplits | app.js:437 | a generated id splits back to the generated tier's name |
| Collection.WithOwned | app.js:945-952 | the pair's list is replaced, created if absent, and every other pair's list is unchanged |
| Collection.CardCount | app.js:989-995 | the count equals the id's multiplicity in the pair's list; it is 0 when category or type is missing |
| Collection.AddCard | app.js:945-955 | one occurrence is appended to the pair's list; the id's count rises by one; other ids and pairs are unchanged |
| Collection.RemoveCard | app.js:1738-1743 | an owned id's count drops by one; other ids' counts and other pairs' lists are unchanged |
| Collection.IsNewCard | app.js:451-462 | the revealed card is new exactly when its count in its set is 0 |
| Collection.IsSetComplete | app.js:1008-1025 | a list is complete exactly when every tier's name occurs among its tier fields and there are nine distinct tier fields |
| Collection.CompleteIffExactNames | app.js:1008-1025 | a list is complete exactly when its distinct tier fields are the nine tier names, no more and no fewer |
| Collection.CompleteIffEveryTierOwned | app.js:1004-1025 | for well-formed ids of a type, the set is complete exactly when each of the nine tiers' ids is owned |
| Collection.RemovingOnlyCopyBreaksCompletion | app.js:1004-1025 | in a list of one type's well-formed ids, removing the only copy of a tier makes the set incomplete |
| Collection.AppendKeepsComplete | app.js:955 | appending an id whose field is a tier name keeps a complete set complete |
| Collection.RemovingDuplicateKeepsNames | app.js:1739-1743 | removing one of several copies leaves the collected tier names, and so completion, unchanged |
| Collection.TotalCards | app.js:1086-1091 | the card total is at least the length of every pair's list, so a total of 0 means every list is empty |
| Collection.TotalCardsWithOwned | app.js:1086-1091 | replacing one list changes the card total by the difference in list lengths |
| Collection.AddCardTotal | app.js:1086-1091 | adding a card raises the total by exactly one |
| Collection.RemoveCardTotal | app.js:1086-1091 | removing an owned card lowers the total by exactly one |
| SlotMachine.SaleValue | slotMachine.js:69-74 | the drawn value lies in [min, max] whenever min <= max |
| SlotMachine.SaleValueBand | slotMachine.js:74 | each value in the range is drawn for a band of rolls of width 1 / (max - min + 1), so the draw is uniform |
| SlotMachine.DecimalString | slotMachine.js:75 | `toString` gives a non-empty digit string of at most four characters below 10000 |
| SlotMachine.DecimalRoundTrip | slotMachine.js:75 | reading the decimal string back gives the number |
| SlotMachine.PadStart | slotMachine.js:75 | `padStart(4, '0')` keeps the string as its suffix and pads it to four characters |
| SlotMachine.PadStartValue | slotMachine.js:75 | zero padding does not change the value read back |
| SlotMachine.RunSlotMachine | slotMachine.js:69-193 | the drawn value is the uniform draw `SaleValue` on the roll; the returned value and the value passed to `onComplete` are that value; the board shows its decimal string padded to four places, one digit in 0..9 per place |
| SlotMachine.FlipDigitsShowValue | slotMachine.js:163-166 | below 10000 the shown string is four digits that recombine to the paid value |
| SlotMachine.DefaultRangeDigits | slotMachine.js:69 | with the defaults the value lies in 700..1500 and the thousands digit is 0 or 1 |
| Session.CheckSetCompletion | app.js:998-1040 | 1000 coins and the set id are added exactly when the set is complete and not yet recorded; nothing else changes |
| Session.SetCompletionOnce | app.js:1002 | a second completion check with unchanged state awards nothing |
| Session.Claim | app.js:932-986 | with no pending card nothing changes; otherwise exactly the card id is appended to its pair and no other list changes; exactly when the extended list completes a set not yet recorded, 1000 coins are paid and the set id is appended to `completedSets`, which is otherwise unchanged; the pending card is cleared |
| Session.ClaimWithoutCardIsNoOp | app.js:936-940 | claiming with nothing pending is a no-op, and repeating it too |
| Session.ClaimAddsOneCard | app.js:955 | a claim raises the card total by exactly one |
| Session.Discard | app.js:892-909 | closing the reveal clears the pending card and adds nothing; coins, sets, the developer flag, the box and the seen cards are unchanged |
| Session.BeforeOpening | app.js:306-330 | opening records the box; with a card pending, the result is exactly the claim of that card, so the card is added and any set reward paid; afterwards nothing is pending |
| Session.OpenBox | app.js:306-389 | an unknown box or a balance below the cost is refused after the auto-claim; otherwise the cost is paid, the balance stays non-negative, the card generated from that box and those draws becomes pending, and nothing else changes |
| Session.RefusedOpenChangesNothing | app.js:335-345 | with nothing pending, a refused purchase changes only the recorded box id |
| Session.SaleCredit | app.js:1746-1759 | a sale pays the tier's fixed value, or for a secret card the slot machine's value in 700..1500 |
| Session.SellWith | app.js:1734-1866 | the normal handler refuses exactly when at most one copy is owned, the developer handler exactly when none is; otherwise the count drops by one, other ids and pairs are untouched, coins rise by the credit, and only the collection, coins and completed sets change |
| Session.Sell | app.js:1734-1866 | the normal sale is refused exactly for a last copy, and removes the set id's first occurrence from `completedSets` |
| Session.SaleDropsSetId | app.js:1816-1822 | after a sale the set id is absent from a repeat-free `completedSets`, and no other set id changes membership |
| Session.SecretSalePaysShownValue | app.js:1751-1759 | a secret sale credits exactly the slot machine's value, the number its four digits show |
| Session.InitialGameValid | app.js:2-15 | the starting state satisfies the session invariant |
| Session.CheckSetCompletionPreservesValid | app.js:1002-1031 | a completion check keeps the invariant |
| Session.ClaimPreservesValid | app.js:932-986 | a claim keeps the invariant: recorded sets stay complete and are recorded once |
| Session.DiscardPreservesValid | app.js:904 | a discard keeps the invariant |
| Session.OpenBoxPreservesValid | app.js:342-362 | opening a box keeps the invariant, so the balance never goes negative |
| Session.SellPreservesValid | app.js:1734-1866 | a sale keeps the invariant |
| Session.SaleThenClaimRepaysReward | app.js:1816-1822 | after selling a duplicate from a completed set, the set is still complete but unrecorded, and the next claim of that set pays 1000 again |
| Session.PlayPreservesValid | app.js:342-362 | after any sequence of opens, claims, discards and sales from a valid state, the balance is non-negative and the invariant holds |
| Persistence.SaveGame | app.js:209-216 | the record always carries both lists; loading it into any state restores exactly coins, collection, completed sets and seen cards, and loading it into the saved state gives that state back |
| Persistence.LoadGame | app.js:219-229 | no record leaves the state unchanged; a record restores coins and collection verbatim, copies each list that is present and sets a missing one to empty; transient fields are never loaded |
| Persistence.SaveLoadRoundTrip | app.js:209-229 | loading a saved record restores coins, collection, completed sets and seen cards exactly, and keeps the loading state's transient fields |
| Persistence.RestartFromSaveIsValid | app.js:219-229 | restarting from a valid session's record, with nothing pending, gives a valid session |
| DevMode.ToggleDeveloperMode | app.js:2245-2246 | the developer flag flips and the key buffer empties; nothing else changes |
| DevMode.LastLetters | app.js:2558-2563 | the buffer keeps the last letters typed, as many as the code has (six) or fewer, as a suffix of what was typed |
| DevMode.KeyDown | app.js:2555-2571 | developer mode toggles exactly when a letter key makes the last six typed letters spell `skysky`, and then the buffer empties; otherwise a letter leaves the buffer as the last (at most six) letters typed, and any other key leaves it unchanged |
| DevMode.SixthLetterTogglesMode | app.js:2555-2571 | after `skysk`, a `y` or `Y` toggles developer mode and empties the buffer; a full buffer drops its oldest letter first, so `askysk` then `y` toggles too; a shorter buffer just grows by the letter |
| DevMode.ExitDeveloperMode | app.js:2574-2580 | the exit button always leaves developer mode off and changes nothing else; leaving the mode clears the typed-letter buffer, and a click outside the mode keeps it |
| DevMode.AddTestCoins | app.js:2337-2340 | 1000 coins are added in developer mode only |
| DevMode.SubtractTestCoins | app.js:2345-2356 | in developer mode 1000 coins are removed, or the balance is set to 0 when below 1000; it never goes negative |
| DevMode.ResetSet | app.js:1322-1337 | in developer mode a non-empty set is emptied and its id removed; other pairs are untouched, and only the collection and `completedSets` can change |
| DevMode.AddMissingCard | app.js:1415-1431 | in developer mode a card not yet owned is appended, and the set check then pays 1000 coins and records the set exactly when the list completes an unrecorded set; every other pair is unchanged; an owned card changes nothing |
| DevMode.AddCopy | app.js:1569-1720 | one more copy of the id is added, whether or not developer mode is still on, and every other id and pair is unchanged; the set check then pays 1000 coins and records the set exactly when the list completes an unrecorded set |
| DevMode.ResetCollection | app.js:2452-2466 | in developer mode the collection becomes the three empty categories, the card total is 0 and every completion is forgotten; only the collection and `completedSets` can change |
| DevMode.DevSell | app.js:1599-1704 | the developer handler refuses only when no copy is owned (its `indexOf !== -1` guard), so it can sell the last copy; it removes one copy of that id and no other card of any pair, credits exactly the tier's sale price for the roll, and changes only the collection and coins, leaving `completedSets` untouched |
| DevMode.DevSaleOfLastCopyLeavesStaleRecord | app.js:1599-1704 | on its own, selling the last copy of a tier from a recorded set leaves the set incomplete but still recorded, which breaks the invariant |
| DevMode.SellClickWithBothHandlers | app.js:1593-1605 | for a non-secret tier, after `+` raises a count from one to two, one click on a button holding both handlers sells both copies and credits twice; the invariant still holds because the normal handler drops the set id first |
| DevMode.SecretSellClickWithBothHandlers | app.js:1593-1627 | for a secret card the same click removes both copies but credits only the developer handler's draw, and the set id stays recorded with no secret copy left, which breaks the invariant |
| DevMode.DevSellPreservesValid | app.js:1599-1704 | the developer sale keeps the invariant when it sells a duplicate or when the set is not recorded |
| DevMode.ResetSetPreservesValid | app.js:1326-1337 | emptying a set keeps the invariant |
| DevMode.AddCopyPreservesValid | app.js:1573-1581 | adding a listed card keeps the invariant |
| DevMode.CoinButtonsAndResetPreserveValid | app.js:2337-2356 | the coin buttons and the full reset keep the invariant |

## Left out

- DOM construction, modals, notifications, tooltips, button texts and the collection view's rendering: presentation only.
- Animation and timing. `setTimeout`/`setInterval` delays, the coin roll, the flip-digit animation, 3D tilt, sparkles
  and fireworks are all left out. Each operation is one atomic step, and its delayed parts are applied at once.
- Audio (`playSound`, `new Audio`): foreign browser calls.
- `localStorage` and `JSON` transport: only the shape of the saved record is modelled, and `saveGame` is a function
  returning that record.
- `Math.random` itself: every roll is a parameter.
- Floating-point arithmetic on rolls. The model compares the roll with exact thousandths; the browser's float running
  sum of the probabilities may differ at the last unit in the last place. `Dice.ScaledFloor` takes `r * n` as an
  exact real product, while `Math.floor(Math.random() * n)` (app.js:405, slotMachine.js:74) rounds the product first,
  so a product just below an integer can round up to it and move a band boundary by one double.
- A saved record missing `coins` or `collection`, which the code would copy as `undefined`: the record type requires both.
- Box ids that reach JavaScript's object prototype (such as `constructor`): the model treats every id other than the
  three box ids as unknown.
- The guards of the box click handler (app.js:2506-2521) are left out. That handler ignores clicks while a card is
  pending and compares coins with the element's `data-box-cost`. `OpenBox` models `openBox` itself, whose auto-claim
  branch the handler never reaches.
- The 1200 ms between payment and reveal, and with it a double charge and a lost card. `openBoxProcess` takes the cost
  at once (app.js:362) but sets `currentCard` only in a timer 1200 ms later (app.js:380-388). During that window the
  handler's `currentCard` guard (app.js:2508) still passes, so a second click charges the cost again. Its card then
  overwrites the first one in `currentCard` (app.js:385), and the first card is never claimed. `Session.OpenBox` is
  atomic: it charges and reveals in one step, so the model has no such window and cannot state this double charge.
- The early returns of `openBoxProcess` when a box element or image is missing from the page (app.js:347-359).
- The exception handling in `claimCard`: no operation in the model can throw.
- A secret sale whose slot-machine modal is never dismissed. The code has already removed the card by then, but the
  credit and the `completedSets` update happen only on dismissal. The model applies both at once.
- Which listeners a sell button holds. Both handlers guard only with `indexOf !== -1`. The normal one is attached when
  the card view opens with more than one copy, and after a sale leaves at most one the button is disabled; `Session.Sell`
  folds that button state into a `count > 1` refusal. The normal listener stays attached while the button is disabled,
  and `+` can attach the developer handler beside it, so one click can run both. `DevMode.DevSell` keeps the developer
  handler's own guard, and `DevMode.SellClickWithBothHandlers` follows such a click through both handlers. The model
  has no state for attached listeners and leaves the choice of handlers to the caller.
- SellClickWithBothHandlers: non-secret tiers only. For a secret card the slot-machine callbacks replace one another,
  so the click has a different outcome; `DevMode.SecretSellClickWithBothHandlers` states it. The close button's
  re-creation (slotMachine.js:172-191) is not modelled as state: that lemma writes the normal handler's surviving
  effect as the removal of one copy.
- AddCopy: not gated on developer mode. The `+` handler does not read the flag and `toggleDeveloperMode` does not remove
  the button, so a card view opened in developer mode keeps adding copies after the mode is switched off.
- DevSell: not gated on developer mode. The handler itself does not check the flag; only its button's creation does.
- AddTestCoins: models a single +1000 per click. The title's click handler (app.js:2587) calls `addTestCoins`, which
  registers one more listener on every click, so repeated title clicks credit growing amounts.
- The `sliver` spelling slips and `getCardImagePath`'s file-name rules: asset naming only.

=== FILE: cardids.dfy ===
/** The string identifiers of the game: card ids `type-rarity` and set ids `category-type`, and how they are split. */
module CardIds {
  import opened Wrappers
  import opened Seqs
  import opened Config

  /** The id of a card: its type and its tier name joined by `-` (the category is not part of it); for a `-`-free type
      the first `-` splits it back into the two. */
  function CardId(t: string, r: Rarity): (id: string)
    ensures '-' !in t ==> IndexOf(id, '-') == Some(|t|) && id[..|t|] == t && id[|t| + 1..] == RarityName(r)
  {
    var id := t + "-" + RarityName(r);
    assert '-' !in t ==> IndexOf(id, '-') == Some(|t|) by {
      if '-' !in t {
        FirstDashAfter(t, RarityName(r));
      }
    }
    assert id[|t| + 1..] == RarityName(r);
    id
  }

  /** The id of a set in `completedSets`: category name and type joined by `-`; the first `-` ends the category name. */
  function SetId(c: Category, t: string): (id: string)
    ensures IndexOf(id, '-') == Some(|CategoryName(c)|)
    ensures id[..|CategoryName(c)|] == CategoryName(c) && id[|CategoryName(c)| + 1..] == t
  {
    var id := CategoryName(c) + "-" + t;
    CardTypesHaveNoDash(c, t);
    FirstDashAfter(CategoryName(c), t);
    assert id[|CategoryName(c)| + 1..] == t;
    id
  }

  /** JavaScript `s.split('-')[1]`: the text between the first and the second `-`, or None when `s` has no `-`. */
  function SecondField(s: string): (f: Option<string>)
    ensures f.None? <==> '-' !in s
    ensures f.Some? ==> '-' !in f.value
  {
    match IndexOf(s, '-')
    case None => None
    case Some(i) =>
      var rest := s[i + 1..];
      match IndexOf(rest, '-')
      case None => Some(rest)
      case Some(j) => Some(rest[..j])
  }

  /** The tier name set completion reads from a card id: the second field, ignored when missing or empty (`if (rarity)`). */
  function RarityField(id: string): (f: Option<string>)
    ensures f.Some? ==> f.value != "" && '-' !in f.value
  {
    match SecondField(id)
    case Some(n) => if n != "" then Some(n) else None
    case None => None
  }

  /** In `a-b` with no `-` in `a`, the first `-` is the one just after `a`. */
  lemma FirstDashAfter(a: string, b: string)
    requires '-' !in a
    ensures IndexOf(a + "-" + b, '-') == Some(|a|)
  {
    var s := a + "-" + b;
    assert s[|a|] == '-';
    assert s[..|a|] == a;
  }

  /** Splitting a card id whose type has no `-` recovers the tier name, and with it the tier. */
  lemma CardIdSplits(t: string, r: Rarity)
    requires '-' !in t
    ensures SecondField(CardId(t, r)) == Some(RarityName(r))
    ensures RarityField(CardId(t, r)) == Some(RarityName(r))
    ensures ParseRarity(RarityField(CardId(t, r)).value) == Some(r)
  {
    FirstDashAfter(t, RarityName(r));
    RarityNameRoundTrip(r);
    var s := CardId(t, r);
    assert s[|t| + 1..] == RarityName(r);
  }

  /** Two `-`-joined ids whose first parts have no `-` are equal only when both parts are. */
  lemma JoinInjective(a: string, b: string, a': string, b': string)
    requires '-' !in a && '-' !in a'
    requires a + "-" + b == a' + "-" + b'
    ensures a == a' && b == b'
  {
    FirstDashAfter(a, b);
    FirstDashAfter(a', b');
    var s := a + "-" + b;
    assert a == s[..|a|] && a' == s[..|a'|];
    assert b == s[|a| + 1..] && b' == s[|a'| + 1..];
  }

  /** Distinct (category, type) pairs have distinct set ids. */
  lemma SetIdInjective(c: Category, t: string, c': Category, t': string)
    requires SetId(c, t) == SetId(c', t')
    ensures c == c' && t == t'
  {
    CardTypesHaveNoDash(c, t);
    CardTypesHaveNoDash(c', t');
    JoinInjective(CategoryName(c), t, CategoryName(c'), t');
  }

  /** Distinct (type, tier) pairs with `-`-free types have distinct card ids. */
  lemma CardIdInjective(t: string, r: Rarity, t': string, r': Rarity)
    requires '-' !in t && '-' !in t'
    requires CardId(t, r) == CardId(t', r')
    ensures t == t' && r == r'
  {
    JoinInjective(t, RarityName(r), t', RarityName(r'));
    RarityNameRoundTrip(r);
    RarityNameRoundTrip(r');
  }
}

=== FILE: collection.dfy ===
/** The collection store: card-id lists per category and type, occurrence counts, totals and set completion. */
module Collection {
  import opened Seqs
  import opened Config
  import opened CardIds

  /** The owned card ids of one category, keyed by card type; each list is in insertion order with duplicates. */
  type TypeLists = map<string, seq<string>>

  /** The `collection` object: category -> type -> owned card ids. */
  type Collection = map<Category, TypeLists>

  /** A fresh collection: every category present with no types. */
  const EmptyCollection: Collection := map[Character := map[], Weapon := map[], Instrument := map[]]

  /** The list owned for a (category, type) pair; a missing category or type reads as the empty list. */
  function Owned(col: Collection, c: Category, t: string): seq<string> {
    if c in col && t in col[c] then col[c][t] else []
  }

  /** Replaces the list of one (category, type) pair, creating the category and type entries when absent. */
  function WithOwned(col: Collection, c: Category, t: string, l: seq<string>): (r: Collection)
    ensures Owned(r, c, t) == l
    ensures forall c', t' :: (c' != c || t' != t) ==> Owned(r, c', t') == Owned(col, c', t')
    ensures r.Keys == col.Keys + {c}
  {
    var lists := if c in col then col[c] else map[];
    col[c := lists[t := l]]
  }

  /** `getCardCount(category, type, cardId)`: the occurrences of `id` in the pair's list. */
  function CardCount(col: Collection, c: Category, t: string, id: string): (n: nat)
    ensures n == multiset(Owned(col, c, t))[id]
    ensures n > 0 <==> id in Owned(col, c, t)
  {
    CountIsMultiplicity(Owned(col, c, t), id);
    Count(Owned(col, c, t), id)
  }

  /** The `push` of a claim: appends one occurrence of `id` to the pair's list. */
  function AddCard(col: Collection, c: Category, t: string, id: string): (r: Collection)
    ensures Owned(r, c, t) == Owned(col, c, t) + [id]
    ensures forall c', t' :: (c' != c || t' != t) ==> Owned(r, c', t') == Owned(col, c', t')
    ensures CardCount(r, c, t, id) == CardCount(col, c, t, id) + 1
    ensures forall other :: other != id ==> CardCount(r, c, t, other) == CardCount(col, c, t, other)
  {
    WithOwned(col, c, t, Owned(col, c, t) + [id])
  }

  /** The `indexOf` + `splice` of a sale: removes the first occurrence of `id` from the pair's list. */
  function RemoveCard(col: Collection, c: Category, t: string, id: string): (r: Collection)
    ensures id in Owned(col, c, t) ==> CardCount(r, c, t, id) == CardCount(col, c, t, id) - 1
    ensures forall other :: other != id ==> CardCount(r, c, t, other) == CardCount(col, c, t, other)
    ensures id in Owned(col, c, t) ==> |Owned(r, c, t)| == |Owned(col, c, t)| - 1
    ensures forall c', t' :: (c' != c || t' != t) ==> Owned(r, c', t') == Owned(col, c', t')
  {
    WithOwned(col, c, t, RemoveFirst(Owned(col, c, t), id))
  }

  /** The card shown on reveal is "new" when its id is nowhere in the pair's list. */
  function IsNewCard(col: Collection, c: Category, t: string, r: Rarity): (isNew: bool)
    ensures isNew <==> CardCount(col, c, t, CardId(t, r)) == 0
  {
    CardId(t, r) !in Owned(col, c, t)
  }

  /** The distinct tier names set completion collects from a list (the `uniqueRarities` set). */
  function RarityNames(l: seq<string>): set<string> {
    set id | id in l && RarityField(id).Some? :: RarityField(id).value
  }

  /** `checkSetCompletion`'s test: every tier name collected, and exactly nine distinct names. */
  function IsSetComplete(l: seq<string>): (complete: bool)
    ensures complete <==> (forall r: Rarity :: RarityName(r) in RarityNames(l)) && |RarityNames(l)| == 9
  {
    assert |Rarities| == 9;
    assert (forall i | 0 <= i < |Rarities| :: RarityName(Rarities[i]) in RarityNames(l))
      ==> forall r: Rarity :: RarityName(r) in RarityNames(l) by {
      if forall i | 0 <= i < |Rarities| :: RarityName(Rarities[i]) in RarityNames(l) {
        forall r: Rarity ensures RarityName(r) in RarityNames(l) {
          RaritiesListsEveryTier(r);
          var i :| 0 <= i < |Rarities| && Rarities[i] == r;
        }
      }
    }
    && (forall i | 0 <= i < |Rarities| :: RarityName(Rarities[i]) in RarityNames(l))
    && |RarityNames(l)| == |Rarities|
  }

  /** A subset is no larger than its superset. */
  lemma {:induction false} SubsetSize(a: set<string>, b: set<string>)
    requires a <= b
    ensures |a| <= |b|
    decreases |a|
  {
    if a != {} {
      var x :| x in a;
      SubsetSize(a - {x}, b - {x});
    }
  }

  /** A subset as large as its superset is the whole superset. */
  lemma SubsetOfSameSize(a: set<string>, b: set<string>)
    requires a <= b && |a| == |b|
    ensures a == b
  {
    if a != b {
      var x :| x in b && x !in a;
      assert a <= b - {x};
      assert |b - {x}| == |b| - 1;
      SubsetSize(a, b - {x});
    }
  }

  /** A list is complete exactly when the names it carries are the nine tier names, no more and no fewer. */
  lemma CompleteIffExactNames(l: seq<string>)
    ensures IsSetComplete(l) <==> RarityNames(l) == AllRarityNames
  {
    AllRarityNamesCount();
    var names := RarityNames(l);
    if IsSetComplete(l) {
      assert AllRarityNames <= names by {
        forall n | n in AllRarityNames ensures n in names {
          var i :| 0 <= i < |Rarities| && RarityName(Rarities[i]) == n;
        }
      }
      SubsetOfSameSize(AllRarityNames, names);
    }
  }

  /** A set is complete exactly when each of the nine tiers' card ids is owned, for a list of well-formed ids of type `t`. */
  lemma CompleteIffEveryTierOwned(l: seq<string>, t: string)
    requires '-' !in t
    requires forall id :: id in l ==> exists r :: id == CardId(t, r)
    ensures IsSetComplete(l) <==> forall r: Rarity :: CardId(t, r) in l
  {
    CompleteIffExactNames(l);
    if IsSetComplete(l) {
      forall r: Rarity ensures CardId(t, r) in l {
        AllRarityNamesAreTierNames(RarityName(r));
        RarityNameRoundTrip(r);
        assert RarityName(r) in RarityNames(l);
        var id :| id in l && RarityField(id).Some? && RarityField(id).value == RarityName(r);
        var r' :| id == CardId(t, r');
        CardIdSplits(t, r');
        RarityNameRoundTrip(r');
      }
    }
    if forall r: Rarity :: CardId(t, r) in l {
      forall n | n in AllRarityNames ensures n in RarityNames(l) {
        AllRarityNamesAreTierNames(n);
        var r := ParseRarity(n).value;
        CardIdSplits(t, r);
        assert CardId(t, r) in l;
      }
      forall n | n in RarityNames(l) ensures n in AllRarityNames {
        var id :| id in l && RarityField(id).Some? && RarityField(id).value == n;
        var r :| id == CardId(t, r);
        CardIdSplits(t, r);
        RarityNameRoundTrip(r);
        AllRarityNamesAreTierNames(n);
      }
    }
  }

  /** Appending an id whose field is a tier name (or is ignored) keeps a complete set complete. */
  lemma AppendKeepsComplete(l: seq<string>, id: string)
    requires IsSetComplete(l)
    requires RarityField(id).Some? ==> RarityField(id).value in AllRarityNames
    ensures IsSetComplete(l + [id])
  {
    CompleteIffExactNames(l);
    assert RarityNames(l + [id]) == RarityNames(l) by {
      assert forall x :: x in l + [id] <==> x in l || x == id;
    }
    CompleteIffExactNames(l + [id]);
  }

  /** In a list of one type's ids, removing the only copy of a tier makes the set incomplete. */
  lemma RemovingOnlyCopyBreaksCompletion(l: seq<string>, t: string, r: Rarity)
    requires '-' !in t
    requires forall id :: id in l ==> exists r' :: id == CardId(t, r')
    requires multiset(l)[CardId(t, r)] == 1
    ensures !IsSetComplete(RemoveFirst(l, CardId(t, r)))
  {
    assert CardId(t, r) in multiset(l);
    var l' := RemoveFirst(l, CardId(t, r));
    assert multiset(l')[CardId(t, r)] == 0;
    forall id | id in l' ensures exists r' :: id == CardId(t, r') {
      assert multiset(l')[id] > 0;
      assert id in multiset(l);
      assert id in l;
    }
    CompleteIffEveryTierOwned(l', t);
  }

  /** Removing one of several copies of an id leaves the collected names, hence completion, unchanged. */
  lemma RemovingDuplicateKeepsNames(l: seq<string>, id: string)
    requires multiset(l)[id] > 1
    ensures RarityNames(RemoveFirst(l, id)) == RarityNames(l)
    ensures IsSetComplete(RemoveFirst(l, id)) == IsSetComplete(l)
  {
    var r := RemoveFirst(l, id);
    assert forall x :: x in r <==> x in l by {
      forall x ensures x in r <==> x in l {
        assert multiset(r)[x] == multiset(l)[x] - (if x == id then 1 else 0);
      }
    }
  }

  /** The number of card ids over all types of one category. */
  ghost function SumLengths(m: TypeLists): nat
    decreases |m.Keys|
  {
    if m == map[] then 0
    else
      var k :| k in m;
      |m[k]| + SumLengths(m - {k})
  }

  /** Any key may be taken first when summing list lengths. */
  lemma {:induction false} SumLengthsRemove(m: TypeLists, k: string)
    requires k in m
    ensures SumLengths(m) == |m[k]| + SumLengths(m - {k})
    decreases |m.Keys|
  {
    var k' :| k' in m && SumLengths(m) == |m[k']| + SumLengths(m - {k'});
    if k' != k {
      assert |(m - {k'}).Keys| < |m.Keys| by {
        assert m.Keys == (m - {k'}).Keys + {k'};
      }
      assert |(m - {k}).Keys| < |m.Keys| by {
        assert m.Keys == (m - {k}).Keys + {k};
      }
      SumLengthsRemove(m - {k'}, k);
      SumLengthsRemove(m - {k}, k');
      assert m - {k'} - {k} == m - {k} - {k'};
    }
  }

  /** Replacing one list changes the sum by the difference in lengths. */
  lemma SumLengthsUpdate(m: TypeLists, k: string, v: seq<string>)
    ensures SumLengths(m[k := v]) == SumLengths(m) - (if k in m then |m[k]| else 0) + |v|
  {
    SumLengthsRemove(m[k := v], k);
    assert m[k := v] - {k} == m - {k};
    if k in m {
      SumLengthsRemove(m, k);
    } else {
      assert m - {k} == m;
    }
  }

  /** The card count of one category (0 when the category is absent). */
  ghost function CategoryTotal(col: Collection, c: Category): nat {
    if c in col then SumLengths(col[c]) else 0
  }

  /** The total number of owned cards over every category and type (`updateCollectionStats`): no pair's list is
      longer, so a total of 0 means every list is empty. */
  ghost function TotalCards(col: Collection): (total: nat)
    ensures forall c, t :: |Owned(col, c, t)| <= total
  {
    var total := CategoryTotal(col, Character) + CategoryTotal(col, Weapon) + CategoryTotal(col, Instrument);
    assert forall c, t :: |Owned(col, c, t)| <= total by {
      forall c, t ensures |Owned(col, c, t)| <= total {
        if c in col && t in col[c] {
          SumLengthsRemove(col[c], t);
        }
        assert c == Character || c == Weapon || c == Instrument;
      }
    }
    total
  }

  /** Replacing one pair's list changes the total by the difference in list lengths. */
  lemma TotalCardsWithOwned(col: Collection, c: Category, t: string, l: seq<string>)
    ensures TotalCards(WithOwned(col, c, t, l)) == TotalCards(col) - |Owned(col, c, t)| + |l|
  {
    var lists := if c in col then col[c] else map[];
    SumLengthsUpdate(lists, t, l);
    assert SumLengths(map[]) == 0;
  }

  /** A claim adds exactly one card to the total. */
  lemma AddCardTotal(col: Collection, c: Category, t: string, id: string)
    ensures TotalCards(AddCard(col, c, t, id)) == TotalCards(col) + 1
  {
    TotalCardsWithOwned(col, c, t, Owned(col, c, t) + [id]);
  }

  /** A sale of an owned card removes exactly one card from the total. */
  lemma RemoveCardTotal(col: Collection, c: Category, t: string, id: string)
    requires id in Owned(col, c, t)
    ensures TotalCards(RemoveCard(col, c, t, id)) == TotalCards(col) - 1
  {
    TotalCardsWithOwned(col, c, t, RemoveFirst(Owned(col, c, t), id));
  }
}

=== FILE: config.dfy ===
/** Static game configuration: rarity tiers, tier values, card categories and types, and the three boxes. */
module Config {
  import opened Wrappers

  /** The nine rarity tiers, declared in the game's tier order. */
  datatype Rarity = Classic | Silver | Gold | Rare | Supreme | Epic | Legendary | Mythic | Secret

  /** The `rarities` list: every tier, lowest first. */
  const Rarities: seq<Rarity> := [Classic, Silver, Gold, Rare, Supreme, Epic, Legendary, Mythic, Secret]

  /** The lower-case name a tier carries inside card ids. */
  function RarityName(r: Rarity): string {
    match r
    case Classic => "classic"
    case Silver => "silver"
    case Gold => "gold"
    case Rare => "rare"
    case Supreme => "supreme"
    case Epic => "epic"
    case Legendary => "legendary"
    case Mythic => "mythic"
    case Secret => "secret"
  }

  /** The tier a name stands for, if any. */
  function ParseRarity(s: string): (r: Option<Rarity>)
    ensures r.Some? ==> RarityName(r.value) == s
  {
    if s == "classic" then Some(Classic)
    else if s == "silver" then Some(Silver)
    else if s == "gold" then Some(Gold)
    else if s == "rare" then Some(Rare)
    else if s == "supreme" then Some(Supreme)
    else if s == "epic" then Some(Epic)
    else if s == "legendary" then Some(Legendary)
    else if s == "mythic" then Some(Mythic)
    else if s == "secret" then Some(Secret)
    else None
  }

  /** Tier names are recovered exactly by parsing, so distinct tiers have distinct names. */
  lemma RarityNameRoundTrip(r: Rarity)
    ensures ParseRarity(RarityName(r)) == Some(r)
    ensures '-' !in RarityName(r) && |RarityName(r)| > 0
  {
  }

  /** The `rarities` list holds every tier exactly once. */
  lemma RaritiesListsEveryTier(r: Rarity)
    ensures r in Rarities
    ensures forall i, j :: 0 <= i < j < |Rarities| ==> Rarities[i] != Rarities[j]
  {
  }

  /** The names of all nine tiers. */
  const AllRarityNames: set<string> := set i | 0 <= i < |Rarities| :: RarityName(Rarities[i])

  /** A string is a tier name exactly when it parses as one. */
  lemma AllRarityNamesAreTierNames(s: string)
    ensures s in AllRarityNames <==> ParseRarity(s).Some?
  {
    if ParseRarity(s).Some? {
      var r := ParseRarity(s).value;
      RaritiesListsEveryTier(r);
      var i :| 0 <= i < |Rarities| && Rarities[i] == r;
      assert RarityName(Rarities[i]) == s;
    }
    if s in AllRarityNames {
      var i :| 0 <= i < |Rarities| && RarityName(Rarities[i]) == s;
      RarityNameRoundTrip(Rarities[i]);
    }
  }

  /** There are exactly nine tier names. */
  lemma AllRarityNamesCount()
    ensures |AllRarityNames| == |Rarities| == 9
  {
    var names := ["classic", "silver", "gold", "rare", "supreme", "epic", "legendary", "mythic", "secret"];
    assert AllRarityNames == {names[0], names[1], names[2], names[3], names[4], names[5], names[6], names[7], names[8]} by {
      forall s | s in AllRarityNames ensures s in names {
        var i :| 0 <= i < |Rarities| && RarityName(Rarities[i]) == s;
      }
      forall k | 0 <= k < 9 ensures names[k] in AllRarityNames {
        assert RarityName(Rarities[k]) == names[k];
      }
    }
  }

  /** What a tier is worth when sold: a fixed coin amount, or the secret tier's `'random'` sentinel. */
  datatype RarityValue = Fixed(coins: nat) | RandomAtSale

  /** The `rarityValues` table. */
  function ValueOf(r: Rarity): (v: RarityValue)
    ensures v.RandomAtSale? <==> r == Secret
    ensures v.Fixed? ==> 10 <= v.coins <= 600
  {
    match r
    case Classic => Fixed(10)
    case Silver => Fixed(20)
    case Gold => Fixed(40)
    case Rare => Fixed(80)
    case Supreme => Fixed(150)
    case Epic => Fixed(225)
    case Legendary => Fixed(350)
    case Mythic => Fixed(600)
    case Secret => RandomAtSale
  }

  /** Fixed values strictly increase along the tier order. */
  lemma ValuesIncreaseWithTier(i: nat, j: nat)
    requires i < j < |Rarities| - 1
    ensures ValueOf(Rarities[i]).coins < ValueOf(Rarities[j]).coins
  {
  }

  /** The three card categories. */
  datatype Category = Character | Weapon | Instrument

  /** Every category, in the order the collection object lists them. */
  const Categories: seq<Category> := [Character, Weapon, Instrument]

  /** The category's key in the collection object and in set ids. */
  function CategoryName(c: Category): string {
    match c
    case Character => "character"
    case Weapon => "weapon"
    case Instrument => "instrument"
  }

  /** The `cardTypes` table: the card types of each category, in their listed order. */
  function CardTypes(c: Category): seq<string> {
    match c
    case Character => ["bird", "boat", "cat", "elephant", "monk", "rat", "robot"]
    case Weapon => ["crossbow", "dagger", "pistol", "polearm", "spear", "sword"]
    case Instrument => ["bass", "clarinet", "flute", "harmonica", "keys", "saxophone", "trombone", "trumpet", "ukulele", "violin"]
  }

  /** Every type list is non-empty, and no type name is empty or contains `-` (so a card id splits back at its one `-`). */
  lemma CardTypesHaveNoDash(c: Category, t: string)
    ensures |CardTypes(c)| > 0
    ensures t in CardTypes(c) ==> '-' !in t && |t| > 0
    ensures '-' !in CategoryName(c) && |CategoryName(c)| > 0
  {
    if t in CardTypes(c) {
      var i :| 0 <= i < |CardTypes(c)| && CardTypes(c)[i] == t;
      match c
      case Character => assert '-' !in t;
      case Weapon => assert '-' !in t;
      case Instrument => assert '-' !in t;
    }
  }

  /** No type is listed twice in its category, so a type names exactly one index of the list. */
  lemma CardTypesDistinct(c: Category, i: nat, j: nat)
    requires i < j < |CardTypes(c)|
    ensures CardTypes(c)[i] != CardTypes(c)[j]
  {
  }

  /** A card type belongs to no category other than its own. */
  lemma CardTypeOwnedOnce(c: Category, t: string)
    requires t in CardTypes(c)
    ensures forall d :: d != c ==> t !in CardTypes(d)
  {
    match c
    case Character => CharacterTypesOnly(t);
    case Weapon => WeaponTypesOnly(t);
    case Instrument => InstrumentTypesOnly(t);
  }

  lemma CharacterTypesOnly(t: string)
    requires t in CardTypes(Character)
    ensures t !in CardTypes(Weapon) && t !in CardTypes(Instrument)
  {
  }

  lemma WeaponTypesOnly(t: string)
    requires t in CardTypes(Weapon)
    ensures t !in CardTypes(Character) && t !in CardTypes(Instrument)
  {
  }

  lemma InstrumentTypesOnly(t: string)
    requires t in CardTypes(Instrument)
    ensures t !in CardTypes(Character) && t !in CardTypes(Weapon)
  {
  }

  /** One row of a box's rarity table: the tier and its probability in thousandths. */
  datatype Weight = Weight(rarity: Rarity, thousandths: nat)

  /** A box: its display name, its coin cost and its ordered rarity table. */
  datatype Box = Box(name: string, cost: nat, table: seq<Weight>)

  const ConquerorBox := Box("Conqueror Box", 100, [
    Weight(Classic, 550), Weight(Silver, 200), Weight(Gold, 100), Weight(Rare, 60), Weight(Supreme, 35),
    Weight(Epic, 25), Weight(Legendary, 18), Weight(Mythic, 9), Weight(Secret, 3)])

  const MaestroBox := Box("Maestro Box", 200, [
    Weight(Silver, 350), Weight(Gold, 250), Weight(Rare, 200), Weight(Supreme, 100),
    Weight(Epic, 60), Weight(Legendary, 25), Weight(Mythic, 10), Weight(Secret, 5)])

  const VisionaryBox := Box("Visionary Box", 500, [
    Weight(Supreme, 450), Weight(Epic, 250), Weight(Legendary, 150), Weight(Mythic, 100), Weight(Secret, 50)])

  /** The `boxTypes` lookup: one of the three boxes, or None for any other id. */
  function LookupBox(id: string): (b: Option<Box>)
    ensures b.Some? <==> id in {"conqueror", "maestro", "visionary"}
  {
    if id == "conqueror" then Some(ConquerorBox)
    else if id == "maestro" then Some(MaestroBox)
    else if id == "visionary" then Some(VisionaryBox)
    else None
  }

  /** The sum of the first `n` probabilities of a table, in thousandths. */
  function PrefixSum(t: seq<Weight>, n: nat): nat
    requires n <= |t|
  {
    if n == 0 then 0 else PrefixSum(t, n - 1) + t[n - 1].thousandths
  }

  /** Prefix sums never decrease. */
  lemma {:induction false} PrefixSumMonotone(t: seq<Weight>, m: nat, n: nat)
    requires m <= n <= |t|
    ensures PrefixSum(t, m) <= PrefixSum(t, n)
    decreases n - m
  {
    if m < n {
      PrefixSumMonotone(t, m, n - 1);
    }
  }

  /** Every box costs something, its table sums to exactly 1000 thousandths, and no tier appears twice in its table. */
  lemma BoxTablesExact(id: string)
    requires LookupBox(id).Some?
    ensures LookupBox(id).value.cost > 0
    ensures PrefixSum(LookupBox(id).value.table, |LookupBox(id).value.table|) == 1000
    ensures forall i, j :: 0 <= i < j < |LookupBox(id).value.table| ==>
      LookupBox(id).value.table[i].rarity != LookupBox(id).value.table[j].rarity
  {
    var t := LookupBox(id).value.table;
    if id == "conqueror" {
      assert PrefixSum(t, 1) == 550;
      assert PrefixSum(t, 2) == 750;
      assert PrefixSum(t, 3) == 850;
      assert PrefixSum(t, 4) == 910;
      assert PrefixSum(t, 5) == 945;
      assert PrefixSum(t, 6) == 970;
      assert PrefixSum(t, 7) == 988;
      assert PrefixSum(t, 8) == 997;
    } else if id == "maestro" {
      assert PrefixSum(t, 1) == 350;
      assert PrefixSum(t, 2) == 600;
      assert PrefixSum(t, 3) == 800;
      assert PrefixSum(t, 4) == 900;
      assert PrefixSum(t, 5) == 960;
      assert PrefixSum(t, 6) == 985;
      assert PrefixSum(t, 7) == 995;
    } else {
      assert PrefixSum(t, 1) == 450;
      assert PrefixSum(t, 2) == 700;
      assert PrefixSum(t, 3) == 850;
      assert PrefixSum(t, 4) == 950;
    }
  }
}

=== FILE: devmode.dfy ===
/** Developer mode: the `skysky` key toggle and the debug mutations it unlocks. */
module DevMode {
  import opened Seqs
  import opened Dice
  import opened Config
  import opened CardIds
  import opened Collection
  import opened Session

  /** The key sequence that toggles developer mode. */
  const DevCode: string := "skysky"

  /** An ASCII letter, as `/^[a-z]$/i` accepts. */
  predicate IsLetter(ch: char) {
    ('a' <= ch <= 'z') || ('A' <= ch <= 'Z')
  }

  /** `toLowerCase()` on an ASCII letter. */
  function ToLower(ch: char): (l: char)
    requires IsLetter(ch)
    ensures 'a' <= l <= 'z'
  {
    if 'A' <= ch <= 'Z' then (ch as int - 'A' as int + 'a' as int) as char else ch
  }

  /** `toggleDeveloperMode()`: flips the flag and empties the key buffer. */
  function ToggleDeveloperMode(g: Game): (r: (Game, string))
    ensures r.0.developerMode != g.developerMode && r.1 == []
    ensures r.0 == g.(developerMode := r.0.developerMode)
  {
    (g.(developerMode := !g.developerMode), [])
  }

  /** The last letters typed, as many as the code has: `keySequence.shift()` once the buffer outgrows the code. */
  function LastLetters(typed: string): (w: string)
    ensures |w| == if |typed| < |DevCode| then |typed| else |DevCode|
    ensures w == typed[|typed| - |w|..]
  {
    if |typed| > |DevCode| then typed[|typed| - |DevCode|..] else typed
  }

  /** The keydown listener: a one-letter key is appended lower-cased to the buffer, which keeps its last six letters;
      when the buffer spells `skysky` developer mode toggles. Other keys are ignored. */
  function KeyDown(g: Game, buffer: string, key: string): (r: (Game, string))
    requires |buffer| <= |DevCode|
    ensures |r.1| <= |DevCode|
    ensures r.0 == g.(developerMode := r.0.developerMode)
    ensures r.0.developerMode != g.developerMode <==>
      && |key| == 1 && IsLetter(key[0])
      && var typed := buffer + [ToLower(key[0])];
         |typed| >= |DevCode| && typed[|typed| - |DevCode|..] == DevCode
    ensures r.0.developerMode != g.developerMode ==> r.1 == []
    ensures r.0.developerMode == g.developerMode && !(|key| == 1 && IsLetter(key[0])) ==> r.1 == buffer
    ensures r.0.developerMode == g.developerMode && |key| == 1 && IsLetter(key[0]) ==>
      var typed := buffer + [ToLower(key[0])];
      && |r.1| == (if |typed| < |DevCode| then |typed| else |DevCode|)
      && r.1 == typed[|typed| - |r.1|..]
  {
    if |key| == 1 && IsLetter(key[0]) then
      var window := LastLetters(buffer + [ToLower(key[0])]);
      if window == DevCode then ToggleDeveloperMode(g) else (g, window)
    else (g, buffer)
  }

  /** After `skysk`, the letter `y` typed in either case completes the code: developer mode toggles and the buffer
      empties. A full buffer drops its oldest letter first, so `askysk` followed by `y` toggles too; a shorter
      buffer just grows. */
  lemma SixthLetterTogglesMode(g: Game)
    ensures KeyDown(g, "skysk", "y") == (g.(developerMode := !g.developerMode), [])
    ensures KeyDown(g, "skysk", "Y") == (g.(developerMode := !g.developerMode), [])
    ensures KeyDown(g, "askysk", "y") == (g.(developerMode := !g.developerMode), [])
    ensures KeyDown(g, "skys", "k") == (g, "skysk")
  {
    assert "skysk" + ['y'] == DevCode;
    assert ("askysk" + ['y'])[1..] == DevCode;
    assert "skys" + ['k'] == "skysk";
  }

  /** The exit button: switches developer mode off when it is on. */
  function ExitDeveloperMode(g: Game, buffer: string): (r: (Game, string))
    ensures !r.0.developerMode
    ensures r.0 == g.(developerMode := false)
    ensures r.1 == if g.developerMode then [] else buffer
  {
    if g.developerMode then ToggleDeveloperMode(g) else (g, buffer)
  }

  /** The title click and the +1000 button: 1000 test coins in developer mode, nothing otherwise. */
  function AddTestCoins(g: Game): (r: Game)
    ensures r.coins == if g.developerMode then g.coins + 1000 else g.coins
    ensures r == g.(coins := r.coins)
  {
    if g.developerMode then g.(coins := g.coins + 1000) else g
  }

  /** The -1000 button: removes 1000 coins, or empties a smaller balance; never leaves it negative. */
  function SubtractTestCoins(g: Game): (r: Game)
    ensures g.developerMode ==> r.coins >= 0 && (r.coins <= g.coins || g.coins < 0)
    ensures g.developerMode && g.coins >= 1000 ==> r.coins == g.coins - 1000
    ensures g.developerMode && g.coins < 1000 ==> r.coins == 0
    ensures !g.developerMode ==> r == g
    ensures r == g.(coins := r.coins)
  {
    if !g.developerMode then g
    else if g.coins >= 1000 then g.(coins := g.coins - 1000)
    else g.(coins := 0)
  }

  /** Five clicks on a set title: empties a non-empty set and forgets its completion. */
  function ResetSet(g: Game, c: Category, t: string): (r: Game)
    ensures !g.developerMode || |Owned(g.collection, c, t)| == 0 ==> r == g
    ensures g.developerMode && |Owned(g.collection, c, t)| > 0 ==>
      && Owned(r.collection, c, t) == []
      && r.completedSets == RemoveFirst(g.completedSets, SetId(c, t))
      && r.coins == g.coins
    ensures forall c', t' :: (c' != c || t' != t) ==> Owned(r.collection, c', t') == Owned(g.collection, c', t')
    ensures r == g.(collection := r.collection, completedSets := r.completedSets)
  {
    if g.developerMode && |Owned(g.collection, c, t)| > 0 then
      g.(collection := WithOwned(g.collection, c, t, []),
         completedSets := RemoveFirst(g.completedSets, SetId(c, t)))
    else g
  }

  /** Five clicks on an empty card slot: adds the missing card and checks the set. */
  function AddMissingCard(g: Game, c: Category, t: string, rarity: Rarity): (r: Game)
    ensures !g.developerMode || CardId(t, rarity) in Owned(g.collection, c, t) ==> r == g
    ensures g.developerMode && CardId(t, rarity) !in Owned(g.collection, c, t) ==>
      var l := Owned(g.collection, c, t) + [CardId(t, rarity)];
      var newlyComplete := SetId(c, t) !in g.completedSets && IsSetComplete(l);
      && Owned(r.collection, c, t) == l
      && r.coins == g.coins + (if newlyComplete then SetReward else 0)
      && r.completedSets == g.completedSets + (if newlyComplete then [SetId(c, t)] else [])
    ensures forall c', t' :: (c' != c || t' != t) ==> Owned(r.collection, c', t') == Owned(g.collection, c', t')
    ensures r == g.(collection := r.collection, coins := r.coins, completedSets := r.completedSets)
    ensures CardCount(r.collection, c, t, CardId(t, rarity)) > 0 || !g.developerMode
  {
    var id := CardId(t, rarity);
    if g.developerMode && id !in Owned(g.collection, c, t) then
      CheckSetCompletion(g.(collection := AddCard(g.collection, c, t, id)), c, t)
    else g
  }

  /** The `+` button of the card view: adds one more copy and checks the set. The click handler does not read the
      developer flag; only the button's creation does. */
  function AddCopy(g: Game, c: Category, t: string, rarity: Rarity): (r: Game)
    ensures CardCount(r.collection, c, t, CardId(t, rarity)) == CardCount(g.collection, c, t, CardId(t, rarity)) + 1
    ensures forall other :: other != CardId(t, rarity) ==>
      CardCount(r.collection, c, t, other) == CardCount(g.collection, c, t, other)
    ensures forall c', t' :: (c' != c || t' != t) ==> Owned(r.collection, c', t') == Owned(g.collection, c', t')
    ensures var l := Owned(g.collection, c, t) + [CardId(t, rarity)];
      var newlyComplete := SetId(c, t) !in g.completedSets && IsSetComplete(l);
      && r.coins == g.coins + (if newlyComplete then SetReward else 0)
      && r.completedSets == g.completedSets + (if newlyComplete then [SetId(c, t)] else [])
    ensures r == g.(collection := r.collection, coins := r.coins, completedSets := r.completedSets)
  {
    CheckSetCompletion(g.(collection := AddCard(g.collection, c, t, CardId(t, rarity))), c, t)
  }

  /** Ten clicks on the collection title: empties every category and forgets every completion. */
  function ResetCollection(g: Game): (r: Game)
    ensures g.developerMode ==> r.collection == EmptyCollection && TotalCards(r.collection) == 0 && r.completedSets == []
    ensures r == g.(collection := r.collection, completedSets := r.completedSets)
    ensures !g.developerMode ==> r == g
  {
    if g.developerMode then
      assert SumLengths(map[]) == 0;
      g.(collection := EmptyCollection, completedSets := [])
    else g
  }

  /** The sell handler that the `+` button attaches: it sells any owned copy, the last one included, and leaves
      `completedSets` untouched. */
  function DevSell(g: Game, c: Category, t: string, rarity: Rarity, roll: Roll): (o: SellOutcome)
    ensures o.NotOwned? <==> CardCount(g.collection, c, t, CardId(t, rarity)) == 0
    ensures !o.CannotSellLastCopy?
    ensures o.Sold? ==>
      && CardCount(o.game.collection, c, t, CardId(t, rarity)) == CardCount(g.collection, c, t, CardId(t, rarity)) - 1
      && o.game.completedSets == g.completedSets
      && o.credited == SaleCredit(rarity, roll)
      && o.game.coins == g.coins + o.credited
      && o.game == g.(collection := o.game.collection, coins := o.game.coins)
      && (forall other :: other != CardId(t, rarity) ==>
            CardCount(o.game.collection, c, t, other) == CardCount(g.collection, c, t, other))
      && (forall c', t' :: (c' != c || t' != t) ==> Owned(o.game.collection, c', t') == Owned(g.collection, c', t'))
  {
    SellWith(g, c, t, rarity, roll, false)
  }

  /** A developer sale keeps the session rules when it sells a duplicate, or when the set is not recorded. */
  lemma DevSellPreservesValid(g: Game, c: Category, t: string, rarity: Rarity, roll: Roll)
    requires Valid(g)
    ensures var o := DevSell(g, c, t, rarity, roll);
      o.Sold? && (CardCount(g.collection, c, t, CardId(t, rarity)) > 1 || SetId(c, t) !in g.completedSets) ==>
      Valid(o.game)
  {
    var o := DevSell(g, c, t, rarity, roll);
    if o.Sold? && CardCount(g.collection, c, t, CardId(t, rarity)) > 1 {
      var l := Owned(g.collection, c, t);
      assert Owned(o.game.collection, c, t) == RemoveFirst(l, CardId(t, rarity));
      RemovingDuplicateKeepsNames(l, CardId(t, rarity));
    }
  }

  /** Selling the last copy of a tier from a recorded set whose list holds only ids of its own type leaves the set
      incomplete but still recorded: the developer handler alone breaks the session rules. */
  lemma DevSaleOfLastCopyLeavesStaleRecord(g: Game, c: Category, t: string, rarity: Rarity, roll: Roll)
    requires '-' !in t
    requires forall id :: id in Owned(g.collection, c, t) ==> exists r :: id == CardId(t, r)
    requires CardCount(g.collection, c, t, CardId(t, rarity)) == 1
    requires SetId(c, t) in g.completedSets
    ensures DevSell(g, c, t, rarity, roll).Sold?
    ensures !Valid(DevSell(g, c, t, rarity, roll).game)
  {
    var o := DevSell(g, c, t, rarity, roll);
    assert Owned(o.game.collection, c, t) == RemoveFirst(Owned(g.collection, c, t), CardId(t, rarity));
    RemovingOnlyCopyBreaksCompletion(Owned(g.collection, c, t), t, rarity);
  }

  /** The same click on a secret card. Both handlers remove a copy at once, and each starts a slot-machine run; the
      second run re-creates the close button, dropping the first run's callback, so only the developer handler's
      callback credits. The normal handler's set-id removal was in the lost callback: the set stays recorded with no
      secret copy left, which breaks the session rules. */
  lemma SecretSellClickWithBothHandlers(g: Game, c: Category, t: string, roll': Roll)
    requires Valid(g)
    requires '-' !in t
    requires forall id :: id in Owned(g.collection, c, t) ==> exists r :: id == CardId(t, r)
    requires CardCount(g.collection, c, t, CardId(t, Secret)) == 2
    requires SetId(c, t) in g.completedSets
    ensures var removed := g.(collection := RemoveCard(g.collection, c, t, CardId(t, Secret)));
      var second := DevSell(removed, c, t, Secret, roll');
      && second.Sold?
      && CardCount(second.game.collection, c, t, CardId(t, Secret)) == 0
      && second.game.coins == g.coins + second.credited
      && second.game.completedSets == g.completedSets
      && !Valid(second.game)
  {
    var l := Owned(g.collection, c, t);
    var removed := g.(collection := RemoveCard(g.collection, c, t, CardId(t, Secret)));
    var l' := Owned(removed.collection, c, t);
    assert l' == RemoveFirst(l, CardId(t, Secret));
    assert CardId(t, Secret) in multiset(l);
    forall id | id in l' ensures exists r :: id == CardId(t, r) {
      assert multiset(l')[id] > 0;
      assert id in multiset(l);
      assert id in l;
    }
    DevSaleOfLastCopyLeavesStaleRecord(removed, c, t, Secret, roll');
  }

  /** One click on a sell button that holds both handlers, after `+` raised the count from one to two: the normal
      handler sells one copy and drops the set id, then the developer handler sells the last copy and pays again.
      The session rules still hold, because the set id is already gone. */
  lemma SellClickWithBothHandlers(g: Game, c: Category, t: string, rarity: Rarity, roll: Roll, roll': Roll)
    requires Valid(g)
    requires rarity != Secret
    requires CardCount(g.collection, c, t, CardId(t, rarity)) == 2
    ensures var first := Sell(g, c, t, rarity, roll);
      && first.Sold?
      && var second := DevSell(first.game, c, t, rarity, roll');
      && second.Sold?
      && CardCount(second.game.collection, c, t, CardId(t, rarity)) == 0
      && second.game.coins == g.coins + first.credited + second.credited
      && Valid(second.game)
  {
    var first := Sell(g, c, t, rarity, roll);
    SellPreservesValid(g, c, t, rarity, roll);
    SaleDropsSetId(g, c, t, rarity, roll);
    DevSellPreservesValid(first.game, c, t, rarity, roll');
  }

  /** Emptying a set keeps the session rules: its id leaves `completedSets`. */
  lemma ResetSetPreservesValid(g: Game, c: Category, t: string)
    requires Valid(g)
    ensures Valid(ResetSet(g, c, t))
  {
    if g.developerMode && |Owned(g.collection, c, t)| > 0 {
      RemoveFirstOfDistinct(g.completedSets, SetId(c, t));
      var r := ResetSet(g, c, t);
      forall c', t' | SetId(c', t') in r.completedSets
        ensures IsSetComplete(Owned(r.collection, c', t'))
      {
        RemoveFirstKeepsOthers(g.completedSets, SetId(c, t), SetId(c', t'));
      }
    }
  }

  /** Adding a listed card keeps the session rules. */
  lemma AddCopyPreservesValid(g: Game, c: Category, t: string, rarity: Rarity)
    requires Valid(g)
    requires t in CardTypes(c)
    ensures Valid(AddCopy(g, c, t, rarity))
    ensures Valid(AddMissingCard(g, c, t, rarity))
  {
    var id := CardId(t, rarity);
    var added := g.(collection := AddCard(g.collection, c, t, id));
    CardTypesHaveNoDash(c, t);
    CardIdSplits(t, rarity);
    AllRarityNamesAreTierNames(RarityName(rarity));
    forall c', t' | SetId(c', t') in added.completedSets
      ensures IsSetComplete(Owned(added.collection, c', t'))
    {
      if c' == c && t' == t {
        AppendKeepsComplete(Owned(g.collection, c, t), id);
      }
    }
    CheckSetCompletionPreservesValid(added, c, t);
  }

  /** Test-coin buttons and the full reset keep the session rules. */
  lemma CoinButtonsAndResetPreserveValid(g: Game)
    requires Valid(g)
    ensures Valid(AddTestCoins(g)) && Valid(SubtractTestCoins(g)) && Valid(ResetCollection(g))
  {
  }
}

=== FILE: dice.dfy ===
/** The game's source of randomness: every `Math.random()` call becomes an explicit roll. */
module Dice {

  /** A value returned by `Math.random()`: a real in [0, 1). */
  type Roll = r: real | 0.0 <= r < 1.0 witness 0.0

  /** A product of two non-negative reals is non-negative. */
  lemma MulNonNegative(a: real, b: real)
    requires a >= 0.0 && b >= 0.0
    ensures a * b >= 0.0
  {
  }

  /** `Math.floor(r * n)` for an integer `n`: an index in [0, n) when `n` is positive. */
  function ScaledFloor(r: Roll, n: int): (k: int)
    ensures n > 0 ==> 0 <= k < n
    ensures n <= 0 ==> n <= k <= 0
    ensures k as real <= r * (n as real) < k as real + 1.0
  {
    var x := r * (n as real);
    var m := if n > 0 then n as real else -(n as real);
    MulNonNegative(r, m);
    MulNonNegative(1.0 - r, m);
    assert (1.0 - r) * m == m - r * m;
    if n > 0 then
      assert x == r * m;
      x.Floor
    else
      assert x == -(r * m);
      x.Floor
  }
}

=== FILE: generator.dfy ===
/** The random reward generator (`generateRandomCard`): category, type and rarity draws turned into a card. */
module Generator {
  import opened Wrappers
  import opened Dice
  import opened Config
  import opened CardIds

  /** A card as generated and held pending: `value` is the tier's value, the secret tier's sentinel unresolved. */
  datatype Card = Card(category: Category, cardType: string, rarity: Rarity, value: RarityValue, id: string)

  /** The three `Math.random()` results a card draw consumes, in call order. */
  datatype Draw = Draw(categoryRoll: Roll, typeRoll: Roll, rarityRoll: Roll)

  /** A card as the generator builds it: a listed type of its category, the id `type-rarity`, the tier's value. */
  ghost predicate WellFormedCard(card: Card) {
    && card.cardType in CardTypes(card.category)
    && card.id == CardId(card.cardType, card.rarity)
    && card.value == ValueOf(card.rarity)
  }

  /** The category draw: thresholds 0.33 and 0.66 split [0, 1) into three bands. */
  function PickCategory(roll: Roll): (c: Category)
    ensures c == Character <==> roll < 0.33
    ensures c == Weapon <==> 0.33 <= roll < 0.66
    ensures c == Instrument <==> 0.66 <= roll
  {
    if roll < 0.33 then Character
    else if roll < 0.66 then Weapon
    else Instrument
  }

  /** The type draw: index `floor(roll * n)` into the category's type list, always in bounds. */
  function PickType(c: Category, roll: Roll): (t: string)
    ensures t in CardTypes(c)
    ensures t == CardTypes(c)[ScaledFloor(roll, |CardTypes(c)|)]
    ensures '-' !in t
  {
    CardTypesHaveNoDash(c, "");
    var types := CardTypes(c);
    var t := types[ScaledFloor(roll, |types|)];
    CardTypesHaveNoDash(c, t);
    t
  }

  /** The type draw is uniform: the `k`-th listed type comes out exactly for the rolls in [k / n, (k + 1) / n). */
  lemma PickTypeBand(c: Category, roll: Roll, k: nat)
    requires k < |CardTypes(c)|
    ensures PickType(c, roll) == CardTypes(c)[k] <==>
      k as real <= roll * (|CardTypes(c)| as real) < (k + 1) as real
  {
    var j := ScaledFloor(roll, |CardTypes(c)|);
    if PickType(c, roll) == CardTypes(c)[k] && j != k {
      if j < k {
        CardTypesDistinct(c, j, k);
      } else {
        CardTypesDistinct(c, k, j);
      }
    }
  }

  /** Scans the table from row `i`: the first row whose running sum exceeds the roll (in thousandths), or None. */
  function PickFrom(t: seq<Weight>, roll: Roll, i: nat): (k: Option<nat>)
    requires i <= |t|
    ensures k.Some? ==> i <= k.value < |t| && roll * 1000.0 < PrefixSum(t, k.value + 1) as real
    ensures k.Some? ==> forall j :: i < j <= k.value ==> PrefixSum(t, j) as real <= roll * 1000.0
    ensures k.None? ==> forall j :: i < j <= |t| ==> PrefixSum(t, j) as real <= roll * 1000.0
    decreases |t| - i
  {
    if i == |t| then None
    else if roll * 1000.0 < PrefixSum(t, i + 1) as real then Some(i)
    else PickFrom(t, roll, i + 1)
  }

  /** The row of a rarity table a roll selects, scanning from the first row. */
  function PickRow(t: seq<Weight>, roll: Roll): Option<nat> {
    PickFrom(t, roll, 0)
  }

  /** Row `i` is selected exactly when the roll falls in [PrefixSum(i), PrefixSum(i + 1)) thousandths:
      each row is drawn with probability equal to its weight. */
  lemma PickRowInterval(t: seq<Weight>, roll: Roll, i: nat)
    requires i < |t|
    ensures PickRow(t, roll) == Some(i) <==>
      PrefixSum(t, i) as real <= roll * 1000.0 < PrefixSum(t, i + 1) as real
  {
    var k := PickRow(t, roll);
    if k == Some(i) {
      if i > 0 {
        assert PrefixSum(t, i) as real <= roll * 1000.0;
      }
    }
    if PrefixSum(t, i) as real <= roll * 1000.0 < PrefixSum(t, i + 1) as real {
      if k.Some? && k.value < i {
        PrefixSumMonotone(t, k.value + 1, i);
      }
    }
  }

  /** A table summing to 1000 thousandths always selects a row, so the fallback is never reached. */
  lemma PickRowTotal(t: seq<Weight>, roll: Roll)
    requires PrefixSum(t, |t|) == 1000
    ensures PickRow(t, roll).Some?
  {
  }

  /** The box whose table a draw uses: the named box, or the conqueror box for an unknown id. */
  function TableBox(boxId: string): (b: Box)
    ensures LookupBox(boxId).Some? ==> b == LookupBox(boxId).value
    ensures LookupBox(boxId).None? ==> b == ConquerorBox
  {
    LookupBox(boxId).GetOr(ConquerorBox)
  }

  /** The rarity draw: the selected row's tier, or `classic` when no row is selected. */
  function PickRarity(t: seq<Weight>, roll: Roll): (r: Rarity)
    ensures PickRow(t, roll).None? ==> r == Classic
    ensures PickRow(t, roll).Some? ==> r == t[PickRow(t, roll).value].rarity
  {
    match PickRow(t, roll)
    case Some(i) => t[i].rarity
    case None => Classic
  }

  /** `generateRandomCard(boxType)` with its three rolls supplied. */
  function GenerateCard(boxId: string, d: Draw): (card: Card)
    ensures WellFormedCard(card)
    ensures card.category == PickCategory(d.categoryRoll)
    ensures card.cardType == PickType(card.category, d.typeRoll)
    ensures card.rarity == PickRarity(TableBox(boxId).table, d.rarityRoll)
    ensures '-' !in card.cardType
    ensures exists i :: 0 <= i < |TableBox(boxId).table| && TableBox(boxId).table[i].rarity == card.rarity
  {
    var category := PickCategory(d.categoryRoll);
    var cardType := PickType(category, d.typeRoll);
    var box := TableBox(boxId);
    BoxTablesExact(if LookupBox(boxId).Some? then boxId else "conqueror");
    PickRowTotal(box.table, d.rarityRoll);
    var rarity := PickRarity(box.table, d.rarityRoll);
    Card(category, cardType, rarity, ValueOf(rarity), CardId(cardType, rarity))
  }

  /** An unknown box id draws exactly as the conqueror box does. */
  lemma UnknownBoxDrawsAsConqueror(boxId: string, d: Draw)
    requires LookupBox(boxId).None?
    ensures GenerateCard(boxId, d) == GenerateCard("conqueror", d)
  {
  }

  /** For a known box, the card's tier is row `i`'s tier exactly when the rarity roll falls in row `i`'s band
      [PrefixSum(i), PrefixSum(i + 1)) thousandths; rows of a box never repeat a tier. */
  lemma GeneratedRarityBand(boxId: string, d: Draw, i: nat)
    requires LookupBox(boxId).Some?
    requires i < |LookupBox(boxId).value.table|
    ensures var t := LookupBox(boxId).value.table;
      GenerateCard(boxId, d).rarity == t[i].rarity <==>
      PrefixSum(t, i) as real <= d.rarityRoll * 1000.0 < PrefixSum(t, i + 1) as real
  {
    var t := LookupBox(boxId).value.table;
    BoxTablesExact(boxId);
    PickRowTotal(t, d.rarityRoll);
    PickRowInterval(t, d.rarityRoll, i);
  }

  /** The card id splits back into the card's tier (the `split('-')[1]` set completion relies on). */
  lemma GeneratedIdSplits(boxId: string, d: Draw)
    ensures RarityField(GenerateCard(boxId, d).id) == Some(RarityName(GenerateCard(boxId, d).rarity))
  {
    var card := GenerateCard(boxId, d);
    CardIdSplits(card.cardType, card.rarity);
  }
}

=== FILE: persistence.dfy ===
/** The saved-game record written by `saveGame` and read back by `loadGame`. */
module Persistence {
  import opened Wrappers
  import opened Collection
  import opened Session

  /** The stored record. `completedSets` and `seenCards` may be missing from an older record. */
  datatype SavedGame = SavedGame(
    coins: int,
    collection: Collection,
    completedSets: Option<seq<string>>,
    seenCards: Option<seq<string>>)

  /** `saveGame()`: the balance, the collection, the completed sets and the seen cards; nothing transient. Both lists
      are always written, so loading the record restores the four fields into any state and gives `g` back. */
  function SaveGame(g: Game): (saved: SavedGame)
    ensures saved.completedSets.Some? && saved.seenCards.Some?
    ensures forall into: Game ::
      LoadGame(into, Some(saved)) == into.(coins := g.coins, collection := g.collection,
                                           completedSets := g.completedSets, seenCards := g.seenCards)
    ensures LoadGame(g, Some(saved)) == g
  {
    SavedGame(g.coins, g.collection, Some(g.completedSets), Some(g.seenCards))
  }

  /** `loadGame()`: with a record, copies coins and collection verbatim and defaults the two list fields to empty;
      without one, leaves the state as it is. Pending card, box and developer flag are never read from storage. */
  function LoadGame(g: Game, saved: Option<SavedGame>): (r: Game)
    ensures saved.None? ==> r == g
    ensures saved.Some? ==>
      && r.coins == saved.value.coins
      && r.collection == saved.value.collection
      && r.completedSets == (if saved.value.completedSets.Some? then saved.value.completedSets.value else [])
      && r.seenCards == (if saved.value.seenCards.Some? then saved.value.seenCards.value else [])
    ensures r.currentCard == g.currentCard && r.currentBox == g.currentBox && r.developerMode == g.developerMode
  {
    match saved
    case None => g
    case Some(s) =>
      g.(coins := s.coins, collection := s.collection,
         completedSets := s.completedSets.GetOr([]), seenCards := s.seenCards.GetOr([]))
  }

  /** Loading what was saved restores the persistent fields exactly, whatever state it is loaded into, and keeps that
      state's transient fields; loading a state's own record gives the state back. */
  lemma SaveLoadRoundTrip(g: Game, into: Game)
    ensures var r := LoadGame(into, Some(SaveGame(g)));
      && r.coins == g.coins && r.collection == g.collection
      && r.completedSets == g.completedSets && r.seenCards == g.seenCards
      && r.currentCard == into.currentCard && r.developerMode == into.developerMode
    ensures LoadGame(g, Some(SaveGame(g))) == g
  {
  }

  /** Restarting from the saved record of a valid session, with nothing pending, gives a valid session. */
  lemma RestartFromSaveIsValid(g: Game)
    requires Valid(g)
    ensures Valid(LoadGame(InitialGame, Some(SaveGame(g))))
  {
    var r := LoadGame(InitialGame, Some(SaveGame(g)));
    assert forall c, t :: Owned(r.collection, c, t) == Owned(g.collection, c, t);
  }
}

=== FILE: seqs.dfy ===
/** Sequence helpers shared by card ids and the collection: `indexOf`, `splice(i, 1)`, occurrence counts. */
module Seqs {
  import opened Wrappers

  /** True iff no element occurs twice. */
  ghost predicate NoDuplicates<T>(s: seq<T>) {
    forall i, j :: 0 <= i < j < |s| ==> s[i] != s[j]
  }

  /** JavaScript `Array.prototype.indexOf` / `String.prototype.indexOf` on one element: the first index, or None. */
  function IndexOf<T(==)>(s: seq<T>, x: T): (r: Option<nat>)
    ensures r.None? <==> x !in s
    ensures r.Some? ==> r.value < |s| && s[r.value] == x && x !in s[..r.value]
  {
    if |s| == 0 then None
    else if s[0] == x then Some(0)
    else
      match IndexOf(s[1..], x)
      case None => None
      case Some(i) =>
        assert s[1..][..i] == s[1..i + 1];
        assert s[..i + 1] == [s[0]] + s[1..][..i];
        Some(i + 1)
  }

  /** Removes the first occurrence of `x` (`indexOf` followed by `splice(index, 1)`); no change when absent. */
  function RemoveFirst<T(==)>(s: seq<T>, x: T): (r: seq<T>)
    ensures x !in s ==> r == s
    ensures x in s ==> |r| == |s| - 1 && multiset(r) == multiset(s) - multiset{x}
    ensures x in s ==> exists i :: 0 <= i < |s| && s[i] == x && x !in s[..i] && r == s[..i] + s[i + 1..]
  {
    match IndexOf(s, x)
    case None => s
    case Some(i) =>
      assert s == s[..i] + [s[i]] + s[i + 1..];
      s[..i] + s[i + 1..]
  }

  /** Removing one occurrence of `x` keeps every other value's membership. */
  lemma RemoveFirstKeepsOthers<T>(s: seq<T>, x: T, y: T)
    requires y != x
    ensures y in RemoveFirst(s, x) <==> y in s
  {
    if x in s {
      var r := RemoveFirst(s, x);
      assert multiset(r)[y] == multiset(s)[y];
    }
  }

  /** In a sequence without duplicates, removing the first occurrence removes the value entirely. */
  lemma RemoveFirstOfDistinct<T>(s: seq<T>, x: T)
    requires NoDuplicates(s)
    ensures x !in RemoveFirst(s, x)
    ensures NoDuplicates(RemoveFirst(s, x))
  {
    var idx := IndexOf(s, x);
    if idx.Some? {
      var i := idx.value;
      var r := s[..i] + s[i + 1..];
      assert RemoveFirst(s, x) == r;
      forall k | i < k < |s| ensures s[k] != x {
        assert s[i] != s[k];
      }
      assert x !in s[i + 1..];
      forall a, b | 0 <= a < b < |r| ensures r[a] != r[b] {
        var a' := if a < i then a else a + 1;
        var b' := if b < i then b else b + 1;
        assert r[a] == s[a'] && r[b] == s[b'];
      }
    }
  }

  /** JavaScript `s.filter(e => e === x).length`. */
  function Count<T(==)>(s: seq<T>, x: T): nat {
    if |s| == 0 then 0
    else Count(s[..|s| - 1], x) + (if s[|s| - 1] == x then 1 else 0)
  }

  /** The filter-count agrees with the multiset multiplicity of `x`. */
  lemma {:induction false} CountIsMultiplicity<T>(s: seq<T>, x: T)
    ensures Count(s, x) == multiset(s)[x]
  {
    if |s| > 0 {
      CountIsMultiplicity(s[..|s| - 1], x);
      assert s == s[..|s| - 1] + [s[|s| - 1]];
    }
  }
}

=== FILE: session.dfy ===
/** The game session: the open-box / reveal / claim-or-discard cycle, set completion, and selling duplicates. */
module Session {
  import opened Wrappers
  import opened Seqs
  import opened Dice
  import opened Config
  import opened CardIds
  import opened Generator
  import opened Collection
  import opened SlotMachine

  /** The `gameState` object. `currentCard` is the revealed card awaiting a claim. */
  datatype Game = Game(
    coins: int,
    currentBox: Option<string>,
    currentCard: Option<Card>,
    developerMode: bool,
    collection: Collection,
    completedSets: seq<string>,
    seenCards: seq<string>)

  /** The state a first visit starts from. */
  const InitialGame := Game(2000, None, None, false, EmptyCollection, [], [])

  /** The coins awarded for completing a set. */
  const SetReward: nat := 1000

  /** The rules every normal operation keeps: a non-negative balance, each set recorded at most once, only complete
      sets recorded, and a pending card shaped as the generator makes it. */
  ghost predicate Valid(g: Game) {
    && g.coins >= 0
    && NoDuplicates(g.completedSets)
    && RecordedSetsComplete(g)
    && (g.currentCard.Some? ==> WellFormedCard(g.currentCard.value))
  }

  /** Every set id in `completedSets` names a (category, type) whose list is complete. */
  ghost predicate RecordedSetsComplete(g: Game) {
    forall c, t :: SetId(c, t) in g.completedSets ==> IsSetComplete(Owned(g.collection, c, t))
  }

  /** `checkSetCompletion(category, type)`: records the set and pays the reward once, when it is complete and not yet recorded. */
  function CheckSetCompletion(g: Game, c: Category, t: string): (r: Game)
    ensures var newlyComplete := SetId(c, t) !in g.completedSets && IsSetComplete(Owned(g.collection, c, t));
      && r.coins == g.coins + (if newlyComplete then SetReward else 0)
      && r.completedSets == g.completedSets + (if newlyComplete then [SetId(c, t)] else [])
    ensures r == g.(coins := r.coins, completedSets := r.completedSets)
  {
    var setId := SetId(c, t);
    if setId in g.completedSets then g
    else if IsSetComplete(Owned(g.collection, c, t)) then
      g.(completedSets := g.completedSets + [setId], coins := g.coins + SetReward)
    else g
  }

  /** A second completion check with nothing changed in between awards nothing. */
  lemma SetCompletionOnce(g: Game, c: Category, t: string)
    ensures CheckSetCompletion(CheckSetCompletion(g, c, t), c, t) == CheckSetCompletion(g, c, t)
  {
  }

  /** `claimCard()`: adds the pending card's id to its category and type, checks that set, clears the pending card. */
  function Claim(g: Game): (r: Game)
    ensures g.currentCard.None? ==> r == g
    ensures r.currentCard.None?
    ensures g.currentCard.Some? ==>
      var card := g.currentCard.value;
      var l := Owned(g.collection, card.category, card.cardType) + [card.id];
      var newlyComplete := SetId(card.category, card.cardType) !in g.completedSets && IsSetComplete(l);
      && Owned(r.collection, card.category, card.cardType) == l
      && (forall c, t :: (c != card.category || t != card.cardType) ==> Owned(r.collection, c, t) == Owned(g.collection, c, t))
      && r.coins == g.coins + (if newlyComplete then SetReward else 0)
      && r.completedSets == g.completedSets + (if newlyComplete then [SetId(card.category, card.cardType)] else [])
    ensures r.currentBox == g.currentBox && r.developerMode == g.developerMode && r.seenCards == g.seenCards
  {
    match g.currentCard
    case None => g
    case Some(card) =>
      var added := g.(collection := AddCard(g.collection, card.category, card.cardType, card.id));
      CheckSetCompletion(added, card.category, card.cardType).(currentCard := None)
  }

  /** `hideCardReveal()` without a claim: the pending card is dropped and nothing is added. */
  function Discard(g: Game): (r: Game)
    ensures r.currentCard.None?
    ensures r.collection == g.collection && r.coins == g.coins && r.completedSets == g.completedSets
    ensures r.developerMode == g.developerMode && r.currentBox == g.currentBox && r.seenCards == g.seenCards
  {
    g.(currentCard := None)
  }

  /** What opening a box reports. */
  datatype OpenOutcome = Revealed(card: Card) | UnknownBox | NotEnoughCoins(cost: nat)

  /** The state after `openBox` records the box and claims any pending card, before the box is looked up. */
  function BeforeOpening(g: Game, boxId: string): (r: Game)
    ensures r.currentCard.None?
    ensures g.currentCard.None? ==> r == g.(currentBox := Some(boxId))
    ensures g.currentCard.Some? ==> r == Claim(g.(currentBox := Some(boxId)))
  {
    var recorded := g.(currentBox := Some(boxId));
    if recorded.currentCard.Some? then Claim(recorded) else recorded
  }

  /** `openBox(boxType)` followed by `openBoxProcess`: an unknown box or a short balance stops after the auto-claim;
      otherwise the cost is paid and a generated card becomes the pending card. */
  function OpenBox(g: Game, boxId: string, d: Draw): (r: (Game, OpenOutcome))
    ensures r.1.UnknownBox? <==> LookupBox(boxId).None?
    ensures r.1.NotEnoughCoins? <==> LookupBox(boxId).Some? && BeforeOpening(g, boxId).coins < LookupBox(boxId).value.cost
    ensures !r.1.Revealed? ==> r.0 == BeforeOpening(g, boxId)
    ensures r.1.Revealed? ==>
      && r.0.coins == BeforeOpening(g, boxId).coins - LookupBox(boxId).value.cost
      && r.0.coins >= 0
      && r.0.currentCard == Some(r.1.card)
      && r.1.card == GenerateCard(boxId, d)
      && WellFormedCard(r.1.card)
      && r.0.collection == BeforeOpening(g, boxId).collection
      && r.0.completedSets == BeforeOpening(g, boxId).completedSets
      && r.0 == BeforeOpening(g, boxId).(coins := r.0.coins, currentCard := r.0.currentCard)
  {
    var ready := BeforeOpening(g, boxId);
    match LookupBox(boxId)
    case None => (ready, UnknownBox)
    case Some(box) =>
      if ready.coins < box.cost then (ready, NotEnoughCoins(box.cost))
      else
        var card := GenerateCard(boxId, d);
        (ready.(coins := ready.coins - box.cost, currentCard := Some(card)), Revealed(card))
  }

  /** With no pending card, a refused purchase changes nothing but the recorded box id. */
  lemma RefusedOpenChangesNothing(g: Game, boxId: string, d: Draw)
    requires g.currentCard.None?
    requires !OpenBox(g, boxId, d).1.Revealed?
    ensures OpenBox(g, boxId, d).0 == g.(currentBox := Some(boxId))
  {
  }

  /** What a sale reports: the new state and the coins credited, the normal path's refusal to sell the last copy, or
      the developer path's refusal when no copy is owned. */
  datatype SellOutcome = Sold(game: Game, credited: nat) | CannotSellLastCopy | NotOwned

  /** The coins a sold card of tier `r` pays: its fixed value, or the slot machine's draw for a secret card. */
  function SaleCredit(r: Rarity, roll: Roll): (n: nat)
    ensures ValueOf(r).Fixed? ==> n == ValueOf(r).coins
    ensures r == Secret ==> n == RunSlotMachine(DefaultMin, DefaultMax, roll).paid && DefaultMin <= n <= DefaultMax
  {
    match ValueOf(r)
    case Fixed(n) => n
    case RandomAtSale => RunSlotMachine(DefaultMin, DefaultMax, roll).paid
  }

  /** The state updates of a sale of one `type-rarity` card from the collection view. The `normal` handler keeps the
      last copy and removes the set id from `completedSets`; the developer handler sells any owned copy and leaves
      `completedSets` alone. */
  function SellWith(g: Game, c: Category, t: string, r: Rarity, roll: Roll, normal: bool): (o: SellOutcome)
    ensures o.CannotSellLastCopy? <==> normal && CardCount(g.collection, c, t, CardId(t, r)) <= 1
    ensures o.NotOwned? <==> !normal && CardCount(g.collection, c, t, CardId(t, r)) == 0
    ensures o.Sold? ==>
      && CardCount(o.game.collection, c, t, CardId(t, r)) == CardCount(g.collection, c, t, CardId(t, r)) - 1
      && (forall other :: other != CardId(t, r) ==> CardCount(o.game.collection, c, t, other) == CardCount(g.collection, c, t, other))
      && (forall c', t' :: (c' != c || t' != t) ==> Owned(o.game.collection, c', t') == Owned(g.collection, c', t'))
      && o.credited == SaleCredit(r, roll)
      && o.game.coins == g.coins + o.credited
      && o.game.completedSets == (if normal then RemoveFirst(g.completedSets, SetId(c, t)) else g.completedSets)
      && o.game == g.(collection := o.game.collection, coins := o.game.coins, completedSets := o.game.completedSets)
  {
    var id := CardId(t, r);
    if normal && CardCount(g.collection, c, t, id) <= 1 then CannotSellLastCopy
    else if CardCount(g.collection, c, t, id) == 0 then NotOwned
    else
      var credited := SaleCredit(r, roll);
      var sets := if normal then RemoveFirst(g.completedSets, SetId(c, t)) else g.completedSets;
      Sold(g.(collection := RemoveCard(g.collection, c, t, id), coins := g.coins + credited, completedSets := sets), credited)
  }

  /** The sell button of the card view: sells one duplicate and removes the set id from `completedSets`, whether or
      not the set is still complete. */
  function Sell(g: Game, c: Category, t: string, r: Rarity, roll: Roll): (o: SellOutcome)
    ensures o.CannotSellLastCopy? <==> CardCount(g.collection, c, t, CardId(t, r)) <= 1
    ensures !o.NotOwned?
    ensures o.Sold? ==> o.game.completedSets == RemoveFirst(g.completedSets, SetId(c, t))
  {
    SellWith(g, c, t, r, roll, true)
  }

  /** After a sale the sold set's id is gone from a duplicate-free `completedSets`, and no other set id moves. */
  lemma SaleDropsSetId(g: Game, c: Category, t: string, r: Rarity, roll: Roll)
    requires CardCount(g.collection, c, t, CardId(t, r)) > 1
    ensures NoDuplicates(g.completedSets) ==> SetId(c, t) !in Sell(g, c, t, r, roll).game.completedSets
    ensures forall c', t' :: SetId(c', t') != SetId(c, t) ==>
      (SetId(c', t') in Sell(g, c, t, r, roll).game.completedSets <==> SetId(c', t') in g.completedSets)
  {
    var o := Sell(g, c, t, r, roll);
    if NoDuplicates(g.completedSets) {
      RemoveFirstOfDistinct(g.completedSets, SetId(c, t));
    }
    forall c', t' | SetId(c', t') != SetId(c, t)
      ensures SetId(c', t') in o.game.completedSets <==> SetId(c', t') in g.completedSets
    {
      RemoveFirstKeepsOthers(g.completedSets, SetId(c, t), SetId(c', t'));
    }
  }

  /** A secret card pays exactly the value the slot machine draws and shows. */
  lemma SecretSalePaysShownValue(g: Game, c: Category, t: string, roll: Roll)
    requires CardCount(g.collection, c, t, CardId(t, Secret)) > 1
    ensures var o := Sell(g, c, t, Secret, roll);
      var run := RunSlotMachine(DefaultMin, DefaultMax, roll);
      && o.game.coins == g.coins + run.paid
      && run.digits[0] * 1000 + run.digits[1] * 100 + run.digits[2] * 10 + run.digits[3] == o.credited
  {
    FlipDigitsShowValue(DefaultMin, DefaultMax, roll);
  }

  lemma InitialGameValid()
    ensures Valid(InitialGame)
  {
  }

  /** Checking a set keeps the session rules. */
  lemma CheckSetCompletionPreservesValid(g: Game, c: Category, t: string)
    requires Valid(g)
    ensures Valid(CheckSetCompletion(g, c, t))
  {
    var r := CheckSetCompletion(g, c, t);
    forall c', t' | SetId(c', t') in r.completedSets
      ensures IsSetComplete(Owned(r.collection, c', t'))
    {
      if SetId(c', t') !in g.completedSets {
        SetIdInjective(c', t', c, t);
      }
    }
    if r.completedSets != g.completedSets {
      assert forall i :: 0 <= i < |g.completedSets| ==> g.completedSets[i] != SetId(c, t);
    }
  }

  /** Claiming keeps the session rules: the added id is a tier id of its set, so a recorded set stays complete. */
  lemma ClaimPreservesValid(g: Game)
    requires Valid(g)
    ensures Valid(Claim(g))
  {
    if g.currentCard.Some? {
      var card := g.currentCard.value;
      var added := g.(collection := AddCard(g.collection, card.category, card.cardType, card.id));
      CardTypesHaveNoDash(card.category, card.cardType);
      CardIdSplits(card.cardType, card.rarity);
      AllRarityNamesAreTierNames(RarityName(card.rarity));
      forall c, t | SetId(c, t) in added.completedSets
        ensures IsSetComplete(Owned(added.collection, c, t))
      {
        if c == card.category && t == card.cardType {
          AppendKeepsComplete(Owned(g.collection, c, t), card.id);
        }
      }
      assert Valid(added.(currentCard := None));
      CheckSetCompletionPreservesValid(added.(currentCard := None), card.category, card.cardType);
      assert Claim(g) == CheckSetCompletion(added.(currentCard := None), card.category, card.cardType);
    }
  }

  /** Claiming with no pending card changes nothing (the idempotent "nothing to claim"). */
  lemma ClaimWithoutCardIsNoOp(g: Game)
    requires g.currentCard.None?
    ensures Claim(g) == g && Claim(Claim(g)) == g
  {
  }

  /** A claim adds exactly one card to the collection's total. */
  lemma ClaimAddsOneCard(g: Game)
    requires g.currentCard.Some?
    ensures TotalCards(Claim(g).collection) == TotalCards(g.collection) + 1
  {
    var card := g.currentCard.value;
    AddCardTotal(g.collection, card.category, card.cardType, card.id);
  }

  lemma DiscardPreservesValid(g: Game)
    requires Valid(g)
    ensures Valid(Discard(g))
  {
  }

  /** Opening a box keeps the session rules; in particular the balance never goes negative. */
  lemma OpenBoxPreservesValid(g: Game, boxId: string, d: Draw)
    requires Valid(g)
    ensures Valid(OpenBox(g, boxId, d).0)
  {
    var recorded := g.(currentBox := Some(boxId));
    if recorded.currentCard.Some? {
      ClaimPreservesValid(recorded);
    }
  }

  /** Selling keeps the session rules: the sold set's id is dropped and every other recorded set is untouched. */
  lemma SellPreservesValid(g: Game, c: Category, t: string, r: Rarity, roll: Roll)
    requires Valid(g)
    ensures Sell(g, c, t, r, roll).Sold? ==> Valid(Sell(g, c, t, r, roll).game)
  {
    var o := Sell(g, c, t, r, roll);
    if o.Sold? {
      RemoveFirstOfDistinct(g.completedSets, SetId(c, t));
      forall c', t' | SetId(c', t') in o.game.completedSets
        ensures IsSetComplete(Owned(o.game.collection, c', t'))
      {
      }
    }
  }

  /** A sale cannot make a set incomplete (a copy of the sold tier remains), yet its id is dropped, so the next claim
      of a card of that set pays the completion reward again. */
  lemma SaleThenClaimRepaysReward(g: Game, c: Category, t: string, r: Rarity, roll: Roll, card: Card)
    requires Valid(g)
    requires SetId(c, t) in g.completedSets
    requires CardCount(g.collection, c, t, CardId(t, r)) > 1
    requires WellFormedCard(card) && card.category == c && card.cardType == t
    ensures var sold := Sell(g, c, t, r, roll).game;
      && IsSetComplete(Owned(sold.collection, c, t))
      && SetId(c, t) !in sold.completedSets
      && Claim(sold.(currentCard := Some(card))).coins == sold.coins + SetReward
  {
    var sold := Sell(g, c, t, r, roll).game;
    var l := Owned(g.collection, c, t);
    assert Owned(sold.collection, c, t) == RemoveFirst(l, CardId(t, r));
    RemovingDuplicateKeepsNames(l, CardId(t, r));
    CardTypesHaveNoDash(c, t);
    CardIdSplits(t, card.rarity);
    AllRarityNamesAreTierNames(RarityName(card.rarity));
    AppendKeepsComplete(Owned(sold.collection, c, t), card.id);
  }

  /** One player action of a session, with the rolls it consumes. */
  datatype Action =
    | OpenAction(boxId: string, draw: Draw)
    | ClaimAction
    | DiscardAction
    | SellAction(category: Category, cardType: string, rarity: Rarity, roll: Roll)

  /** The state after one action; a refused sale leaves the state unchanged. */
  function Step(g: Game, a: Action): Game {
    match a
    case OpenAction(boxId, d) => OpenBox(g, boxId, d).0
    case ClaimAction => Claim(g)
    case DiscardAction => Discard(g)
    case SellAction(c, t, r, roll) =>
      match Sell(g, c, t, r, roll)
      case Sold(next, _) => next
      case CannotSellLastCopy => g
      case NotOwned => g
  }

  /** The state after a sequence of actions. */
  function Play(g: Game, actions: seq<Action>): Game
    decreases |actions|
  {
    if |actions| == 0 then g else Play(Step(g, actions[0]), actions[1..])
  }

  /** Every sequence of normal actions from a valid state ends in a valid state: the balance stays non-negative and
      `completedSets` lists only complete sets, each once. */
  lemma {:induction false} PlayPreservesValid(g: Game, actions: seq<Action>)
    requires Valid(g)
    ensures Valid(Play(g, actions)) && Play(g, actions).coins >= 0
    decreases |actions|
  {
    if |actions| > 0 {
      match actions[0] {
        case OpenAction(boxId, d) => OpenBoxPreservesValid(g, boxId, d);
        case ClaimAction => ClaimPreservesValid(g);
        case DiscardAction => DiscardPreservesValid(g);
        case SellAction(c, t, r, roll) => SellPreservesValid(g, c, t, r, roll);
      }
      PlayPreservesValid(Step(g, actions[0]), actions[1..]);
    }
  }
}

=== FILE: slotmachine.dfy ===
/** The secret-card sale value (`runSlotMachineAnimation`): a uniform integer in [min, max], shown on four flip digits. */
module SlotMachine {
  import opened Dice

  /** The default bounds of the draw, also the bounds every secret sale passes. */
  const DefaultMin: nat := 700
  const DefaultMax: nat := 1500

  /** `Math.floor(Math.random() * (max - min + 1)) + min`. */
  function SaleValue(minValue: nat, maxValue: nat, roll: Roll): (v: nat)
    ensures minValue <= maxValue ==> minValue <= v <= maxValue
  {
    ScaledFloor(roll, maxValue - minValue + 1) + minValue
  }

  /** The draw is uniform: value `v` comes out exactly for the rolls in a band of width 1 / (max - min + 1). */
  lemma SaleValueBand(minValue: nat, maxValue: nat, roll: Roll, v: int)
    requires minValue <= maxValue
    ensures SaleValue(minValue, maxValue, roll) == v <==>
      (v - minValue) as real <= roll * ((maxValue - minValue + 1) as real) < (v - minValue + 1) as real
  {
  }

  /** The character of a decimal digit. */
  function DigitChar(d: nat): (c: char)
    requires d < 10
    ensures '0' <= c <= '9'
  {
    ('0' as int + d) as char
  }

  /** True iff every character is a decimal digit. */
  predicate AllDigits(s: string) {
    forall i | 0 <= i < |s| :: '0' <= s[i] <= '9'
  }

  /** `n.toString()` for a non-negative integer: its decimal digits, most significant first, no leading zero. */
  function DecimalString(n: nat): (s: string)
    ensures |s| > 0 && AllDigits(s)
    ensures n < 10 ==> |s| == 1
    ensures n < 100 ==> |s| <= 2
    ensures n < 1000 ==> |s| <= 3
    ensures n < 10000 ==> |s| <= 4
  {
    if n < 10 then [DigitChar(n)] else DecimalString(n / 10) + [DigitChar(n % 10)]
  }

  /** The number a digit string denotes (what `parseInt` reads from it). */
  function DigitsValue(s: string): nat
    requires AllDigits(s)
  {
    if |s| == 0 then 0
    else DigitsValue(s[..|s| - 1]) * 10 + (s[|s| - 1] as int - '0' as int)
  }

  /** Reading back the decimal string gives the number. */
  lemma {:induction false} DecimalRoundTrip(n: nat)
    ensures DigitsValue(DecimalString(n)) == n
  {
    if n >= 10 {
      DecimalRoundTrip(n / 10);
      var s := DecimalString(n);
      assert s[..|s| - 1] == DecimalString(n / 10);
    }
  }

  /** `padStart(len, '0')`: prefixes zeros until the string has `len` characters; longer strings are kept. */
  function PadStart(s: string, len: nat): (p: string)
    ensures |p| == if |s| >= len then |s| else len
    ensures AllDigits(s) ==> AllDigits(p)
    ensures p[|p| - |s|..] == s
    decreases len - |s|
  {
    if |s| >= len then s
    else
      var p := PadStart("0" + s, len);
      assert p[|p| - |s|..] == p[|p| - |"0" + s|..][1..];
      p
  }

  /** A leading zero does not change the value of a digit string. */
  lemma {:induction false} LeadingZeroValue(s: string)
    requires AllDigits(s)
    ensures DigitsValue("0" + s) == DigitsValue(s)
  {
    if |s| > 0 {
      LeadingZeroValue(s[..|s| - 1]);
      assert ("0" + s)[..|"0" + s| - 1] == "0" + s[..|s| - 1];
    }
  }

  /** Zero padding does not change the value. */
  lemma {:induction false} PadStartValue(s: string, len: nat)
    requires AllDigits(s)
    ensures DigitsValue(PadStart(s, len)) == DigitsValue(s)
    decreases len - |s|
  {
    if |s| < len {
      LeadingZeroValue(s);
      PadStartValue("0" + s, len);
    }
  }

  /** One run of the slot machine: the drawn value, the zero-padded string, the four digits handed to the flip
      animation, the value the function returns and the value passed to `onComplete`. */
  datatype SlotRun = SlotRun(sellValue: nat, shown: string, digits: seq<nat>, returned: nat, paid: nat)

  /** `runSlotMachineAnimation(min, max, onComplete)` with its roll supplied. */
  function RunSlotMachine(minValue: nat, maxValue: nat, roll: Roll): (run: SlotRun)
    ensures minValue <= maxValue ==> minValue <= run.paid <= maxValue
    ensures run.sellValue == SaleValue(minValue, maxValue, roll)
    ensures run.returned == run.paid == run.sellValue
    ensures run.shown == PadStart(DecimalString(run.sellValue), 4)
    ensures |run.digits| == 4 && forall i | 0 <= i < 4 :: run.digits[i] < 10
    ensures |run.shown| >= 4 && AllDigits(run.shown)
    ensures forall i | 0 <= i < 4 :: run.digits[i] == run.shown[i] as int - '0' as int
  {
    var v := SaleValue(minValue, maxValue, roll);
    var shown := PadStart(DecimalString(v), 4);
    var digits := seq(4, i requires 0 <= i < 4 => shown[i] as int - '0' as int);
    SlotRun(v, shown, digits, v, v)
  }

  /** The value of a four-digit string, place by place. */
  lemma FourDigitsValue(s: string)
    requires |s| == 4 && AllDigits(s)
    ensures DigitsValue(s) == (s[0] as int - '0' as int) * 1000 + (s[1] as int - '0' as int) * 100
      + (s[2] as int - '0' as int) * 10 + (s[3] as int - '0' as int)
  {
    var s3 := s[..3];
    var s2 := s3[..2];
    var s1 := s2[..1];
    assert s1[..0] == [];
    assert DigitsValue(s1) == s[0] as int - '0' as int;
    assert DigitsValue(s2) == DigitsValue(s1) * 10 + (s[1] as int - '0' as int);
    assert DigitsValue(s3) == DigitsValue(s2) * 10 + (s[2] as int - '0' as int);
  }

  /** Below 10000 the padded string is exactly four digits, and those digits recombine to the paid value:
      the flip board shows the amount credited. */
  lemma FlipDigitsShowValue(minValue: nat, maxValue: nat, roll: Roll)
    requires RunSlotMachine(minValue, maxValue, roll).paid < 10000
    ensures var run := RunSlotMachine(minValue, maxValue, roll);
      |run.shown| == 4 &&
      run.digits[0] * 1000 + run.digits[1] * 100 + run.digits[2] * 10 + run.digits[3] == run.paid
  {
    var run := RunSlotMachine(minValue, maxValue, roll);
    DecimalRoundTrip(run.paid);
    PadStartValue(DecimalString(run.paid), 4);
    FourDigitsValue(run.shown);
  }

  /** With the default bounds every sale pays 700..1500 and the thousands digit is 0 or 1. */
  lemma DefaultRangeDigits(roll: Roll)
    ensures var run := RunSlotMachine(DefaultMin, DefaultMax, roll);
      700 <= run.paid <= 1500 && run.digits[0] <= 1
  {
    FlipDigitsShowValue(DefaultMin, DefaultMax, roll);
  }
}

=== FILE: wrappers.dfy ===
/** Option: the absent values of the game engine. */
module Wrappers {

  /** A value that may be missing: a JavaScript `undefined`/`null`, or an index not found. */
  datatype Option<+T> = None | Some(value: T) {

    /** Returns the wrapped value, or `default` when there is none (JavaScript's `x || default`). */
    function GetOr(default: T): T {
      match this
      case Some(v) => v
      case None => default
    }
  }
}
